=== FILE: README.md ===
# File organizer: a Dafny model

This project models the decision logic of a command-line file organizer
(`python_file_organizer_portfolio_ready_organizer.py`). The organizer sorts the files of a
source directory into category folders under a destination root. The category comes from
the file's lower-cased final extension, looked up in a rules table.

The model covers:

- the built-in rules table and the normalisation of loaded rule keys;
- categorisation of a file;
- collision-free naming (`name`, then `stem (2)suffix`, `stem (3)suffix`, ...);
- the hidden-entry filter of the file enumeration;
- the planner, which threads the filesystem through its directory creations;
- the best-effort mover and its accounting;
- the textual preview;
- the control flow and exit code of `main`.

The filesystem is abstract:

- A path is a sequence of name segments, so `/home/u/a.txt` is `["home", "u", "a.txt"]`.
- The filesystem is the finite set of paths that exist.
- A rules table is a `map<string, string>`.

Everything the program learns from its environment is an input:

- the directory listing, in the order the platform yields it;
- the parsed rules document, or the reason it could not be read;
- the operator's reply to the confirmation prompt, or end of input;
- the platform's verdict on each move.

Modules, one per file, in dependency order:

- `Wrappers`: `Option` and `Result`.
- `Text`: ASCII `lower`/`strip`, decimal rendering, padding, `join` and `split`.
- `Sequences`: the subsequence relation.
- `Paths`: paths, `suffix`/`stem`, `mkdir` and directory contents.
- `Rules`: the rules table, key normalisation, `load_rules` and `categorize`.
- `Naming`: `unique_destination`.
- `Enumerate`: `iter_files` and `HIDDEN_PATTERN`.
- `Planner`: `plan_moves`.
- `Mover`: `apply_moves`.
- `Preview`: `human_preview`.
- `Prompt`: the confirmation reply.
- `Cli`: `main`.

## What the planner really does

The model follows the code, including three behaviours that a reader of the organizer's
description might not expect.

- **Names are not disambiguated within a batch.** During planning, the filesystem changes
  only by directory creation. So each destination name is checked against the files present
  before any move (`Planner.PlanDestinations`). Two files of one batch with the same name
  and category get the same destination (`Planner.BatchCollision`).
- **A recursive re-run is not a no-op.** When a recursive scan reaches the category
  directories (the destination lies inside the source), a file that already sits in its
  category directory sees itself as taken. It is planned to move to `stem (i)suffix` for
  some `i >= 2`
  (`Planner.PlacedFileIsRenamed`).
- **The `src == dst` skip never fires.** The chosen destination is always absent from the
  filesystem, while every enumerated file is present. So every enumerated file is planned,
  in order (`Planner.PlanKeepsEveryFile`).
- **Writing the default rules can exit with code 1.** When `--write-default-rules` names an
  existing file, `write_default_rules` raises `SystemExit` with a message. That ends the run
  with exit code 1, not 0.

## Model

| member | source | states |
|---|---|---|
| Text.ShowNatInjective | python_file_organizer_portfolio_ready_organizer.py:131 | distinct counters render to distinct decimal strings, so distinct candidate names never coincide |
| Text.SplitJoin | python_file_organizer_portfolio_ready_organizer.py:174 | splitting text joined with a separator recovers the parts, when no part holds the separator |
| Paths.StemSuffixSplit | python_file_organizer_portfolio_ready_organizer.py:127-128 | a name is its stem followed by its suffix; a non-empty suffix is a dot followed by a dot-free, non-empty word |
| Paths.SuffixOfFinalDot | python_file_organizer_portfolio_ready_organizer.py:118 | only the last extension is the suffix (`backup.tar.gz` has suffix `.gz` and stem `backup.tar`) |
| Paths.NoSuffixWithoutInnerDot | python_file_organizer_portfolio_ready_organizer.py:118 | a name with no dot after its first character (`notes`, `.env`) has an empty suffix and is its own stem |
| Paths.SuffixOfLower | python_file_organizer_portfolio_ready_organizer.py:118 | lower-casing a name lower-cases its suffix |
| Paths.Mkdir | python_file_organizer_portfolio_ready_organizer.py:144 | `mkdir(parents=True, exist_ok=True)` adds the directory and its missing ancestors and nothing else |
| Paths.ChildNames | python_file_organizer_portfolio_ready_organizer.py:124-125 | a name is taken in a directory exactly when that directory's child of that name exists |
| Rules.NormalizeKey | python_file_organizer_portfolio_ready_organizer.py:86-88 | a normalised key is lower-case and starts with a dot; it is the stripped, lower-cased key, with a dot added exactly when that key does not already start with one |
| Rules.NormalizeKeyFixedPoint | python_file_organizer_portfolio_ready_organizer.py:86-88 | a key is left unchanged by normalisation exactly when it is already normal |
| Rules.NormalizeKeyIdempotent | python_file_organizer_portfolio_ready_organizer.py:86-88 | normalising a key twice equals normalising it once |
| Rules.NormalizeKeyLeadingDot | python_file_organizer_portfolio_ready_organizer.py:87-88 | a key that already starts with a dot gets no second dot; any other key gets exactly one |
| Rules.NormalizeItems | python_file_organizer_portfolio_ready_organizer.py:85-89 | entry `i` gets the normalised key of entry `i` of the document and keeps its value; every resulting key is normal, and an entry whose key is already normal is left unchanged |
| Rules.BuildMap | python_file_organizer_portfolio_ready_organizer.py:84-89 | filling a dictionary from pairs in order stores every pair's key |
| Rules.BuildMapFrom | python_file_organizer_portfolio_ready_organizer.py:84-89 | every entry of the filled dictionary is one of the pairs, with its value unaltered |
| Rules.BuildMapLastWins | python_file_organizer_portfolio_ready_organizer.py:84-89 | when several pairs share a key, the last of them supplies the value |
| Rules.BuildMapOfMap | python_file_organizer_portfolio_ready_organizer.py:84-89 | pairs listing exactly the entries of a mapping, in any order and with repetition, rebuild that mapping |
| Rules.BuildMapNormalKeys | python_file_organizer_portfolio_ready_organizer.py:84-89 | pairs with normal keys fill a dictionary with only normal keys |
| Rules.NormalItemsUnchanged | python_file_organizer_portfolio_ready_organizer.py:86-88 | entries whose keys are already normal are left unchanged by normalisation |
| Rules.NormalizeRules | python_file_organizer_portfolio_ready_organizer.py:84-90 | every key of the loaded table is normal, and every entry of the document contributes its normalised key |
| Rules.NormalizeRulesFromItems | python_file_organizer_portfolio_ready_organizer.py:84-90 | every loaded key and value comes from some document entry, with the value unchanged |
| Rules.NormalizeRulesLastWins | python_file_organizer_portfolio_ready_organizer.py:85-89 | when several entries normalise to one key, the last of them supplies the value |
| Rules.NormalizeRulesTwice | python_file_organizer_portfolio_ready_organizer.py:84-90 | loading already-normalised entries gives the same table as loading the originals |
| Rules.NormalizeRulesOfNormalMap | python_file_organizer_portfolio_ready_organizer.py:84-90 | loading a document that lists a normal table entry by entry gives back that table |
| Rules.DefaultKeysNormal | python_file_organizer_portfolio_ready_organizer.py:44-66 | every key of the built-in table is already normal |
| Rules.DefaultNoEmptyKey | python_file_organizer_portfolio_ready_organizer.py:44-66 | the built-in table has no entry for the empty suffix, so a name without a suffix goes to the unknown folder |
| Rules.DefaultRulesRoundTrip | python_file_organizer_portfolio_ready_organizer.py:44-66 | loading a document holding the built-in table gives back the built-in table |
| Rules.LoadRules | python_file_organizer_portfolio_ready_organizer.py:77-92 | no path selects the built-in table; an unreadable document fails, and only then; otherwise the document is normalised, so every key is normal |
| Rules.CategorizeFinalSuffix | python_file_organizer_portfolio_ready_organizer.py:117-119 | a name ending in `.w` is looked up under the lower-cased `.w`, and earlier extensions do not count |
| Rules.CategorizeNoSuffix | python_file_organizer_portfolio_ready_organizer.py:117-119 | a name without a suffix is looked up under the empty key |
| Rules.CategorizeIgnoresCase | python_file_organizer_portfolio_ready_organizer.py:117-119 | upper- and lower-case spellings of a name get the same category |
| Rules.CategorizePhoto | python_file_organizer_portfolio_ready_organizer.py:117-119 | `photo.JPG` is looked up under `.jpg`, whatever the table |
| Rules.CategorizeTarGz | python_file_organizer_portfolio_ready_organizer.py:117-119 | `backup.tar.gz` is looked up under `.gz` alone, whatever the table |
| Rules.CategorizeNoExtension | python_file_organizer_portfolio_ready_organizer.py:117-119 | with the built-in table, `notes` and `.env` go to the unknown folder |
| Naming.CandidateInjective | python_file_organizer_portfolio_ready_organizer.py:131 | candidate names for distinct counters differ |
| Naming.CounterBound | python_file_organizer_portfolio_ready_organizer.py:130-134 | if every counter below `n` is taken, at least `n - 2` names are taken, so the probe ends |
| Naming.FirstFree | python_file_organizer_portfolio_ready_organizer.py:130-134 | the search from counter `i` returns a free counter at least `i`, with every counter between 2 and it taken |
| Naming.LeastFreeUnique | python_file_organizer_portfolio_ready_organizer.py:130-134 | the smallest free counter is unique |
| Naming.UniqueName | python_file_organizer_portfolio_ready_organizer.py:122-134 | the result is never taken; a free name is kept; a taken name becomes `stem (i)suffix` for the smallest free `i >= 2` |
| Naming.UniqueDestination | python_file_organizer_portfolio_ready_organizer.py:122-134 | the probing loop terminates and returns the least free candidate, the same name the reference definition picks |
| Naming.NeverCounterOne | python_file_organizer_portfolio_ready_organizer.py:130 | the counter `(1)` is never used |
| Naming.UniqueNameKeepsSuffix | python_file_organizer_portfolio_ready_organizer.py:128-131 | a renamed file that has a suffix keeps that suffix, and so keeps its category |
| Naming.UniqueNameExample | python_file_organizer_portfolio_ready_organizer.py:122-134 | with `report.pdf` and `report (2).pdf` present, `report.pdf` becomes `report (3).pdf` |
| Enumerate.MatchesAfterSeparator | python_file_organizer_portfolio_ready_organizer.py:68 | prefixing a segment without `/` and a separator adds a match exactly when that segment starts with a dot |
| Enumerate.HiddenPatternIffHiddenSegment | python_file_organizer_portfolio_ready_organizer.py:68 | the hidden-entry pattern matches a relative path exactly when one of its segments starts with a dot |
| Enumerate.FlatAndRecursiveAgree | python_file_organizer_portfolio_ready_organizer.py:106-112 | for a file directly under the root, the recursive pattern test and the flat name test agree |
| Enumerate.KeptEntries | python_file_organizer_portfolio_ready_organizer.py:102-114 | the kept entries are an order-preserving subsequence of the listing |
| Enumerate.KeptEntriesIff | python_file_organizer_portfolio_ready_organizer.py:102-114 | an entry is kept exactly when it is listed and passes the file and hidden-entry tests of its scan mode |
| Enumerate.IterFiles | python_file_organizer_portfolio_ready_organizer.py:102-114 | no more files than listing entries |
| Enumerate.IterFilesIff | python_file_organizer_portfolio_ready_organizer.py:102-114 | a path is yielded exactly when it is the root joined with the relative path of a listed entry that passes the filter |
| Enumerate.RecursiveScanSkipsHidden | python_file_organizer_portfolio_ready_organizer.py:103-108 | without hidden entries, a recursive scan keeps a listed entry exactly when it is a file with no hidden segment |
| Enumerate.FlatScanSkipsHidden | python_file_organizer_portfolio_ready_organizer.py:110-114 | without hidden entries, a flat scan keeps a listed entry exactly when it is a file whose name has no leading dot |
| Enumerate.IncludeHiddenKeepsAllFiles | python_file_organizer_portfolio_ready_organizer.py:102-114 | with hidden entries included, every listed regular file is kept |
| Planner.Destination | python_file_organizer_portfolio_ready_organizer.py:141-145 | a destination lies in its source's category directory, one level below it, and does not exist yet |
| Planner.DestinationStable | python_file_organizer_portfolio_ready_organizer.py:144-145 | creating category directories does not change any later destination choice |
| Planner.PlanStep | python_file_organizer_portfolio_ready_organizer.py:140-149 | one step creates only category directories; a planned move starts at the file and ends at an absent path in the category directory, different from the source |
| Planner.PlanMoves | python_file_organizer_portfolio_ready_organizer.py:137-150 | the plan is no longer than the enumeration, and the filesystem only gains short directory paths |
| Planner.PlanSourcesInOrder | python_file_organizer_portfolio_ready_organizer.py:139-149 | the planned sources are an order-preserving subsequence of the enumerated files |
| Planner.PlanCreatesOnlyCategoryDirs | python_file_organizer_portfolio_ready_organizer.py:143-144 | planning creates nothing but the destination root's ancestors and the categories' directories |
| Planner.PlanDestinations | python_file_organizer_portfolio_ready_organizer.py:139-149 | each planned destination is the one chosen against the filesystem before planning, and differs from its source |
| Planner.PlannedDestinationsAbsent | python_file_organizer_portfolio_ready_organizer.py:139-149 | each planned destination is in the source's category directory and absent both before and after planning |
| Planner.PlanKeepsEveryFile | python_file_organizer_portfolio_ready_organizer.py:147-148 | when every enumerated file exists, the skip never fires: the plan's sources are the enumeration itself |
| Planner.BatchCollision | python_file_organizer_portfolio_ready_organizer.py:139-149 | two files of one batch with one name and one category get the same destination |
| Planner.PlacedFileIsRenamed | python_file_organizer_portfolio_ready_organizer.py:139-149 | a file already in its category directory is planned to move to a renamed `stem (i)suffix` with `i >= 2` |
| Planner.PlanSingle | python_file_organizer_portfolio_ready_organizer.py:139-149 | an existing file on its own is planned to the destination chosen for it |
| Mover.ErrorLine | python_file_organizer_portfolio_ready_organizer.py:164 | every failure message starts with `Failed: ` |
| Mover.Tally | python_file_organizer_portfolio_ready_organizer.py:153-165 | moved plus failed is the number of moves; there is one message per failure, each starting with `Failed: `; moved counts the successes |
| Mover.ApplyMoves | python_file_organizer_portfolio_ready_organizer.py:153-165 | the loop attempts every move and returns the same counts and messages as the reference summary |
| Mover.TallySnoc | python_file_organizer_portfolio_ready_organizer.py:157-164 | one more move changes the summary by that move's outcome alone |
| Mover.TallyAppend | python_file_organizer_portfolio_ready_organizer.py:157-164 | counts add up over a split plan, and the first part's messages precede the second's, so a failure neither stops nor reorders later moves |
| Mover.TallySingle | python_file_organizer_portfolio_ready_organizer.py:158-164 | a lone success counts one moved file with no message; a lone failure counts one failure with its message |
| Preview.PreviewLines | python_file_organizer_portfolio_ready_organizer.py:168-174 | `1 + min(n, max_show)` lines plus a tail when `n > max_show`; the header reports `n`, entries are numbered from 1, the tail reports `n - max_show` |
| Preview.PreviewLinesAreSingle | python_file_organizer_portfolio_ready_organizer.py:169-173 | no preview line holds a line feed when no path does |
| Preview.PreviewRoundTrip | python_file_organizer_portfolio_ready_organizer.py:174 | splitting the preview text at line feeds gives back its lines |
| Preview.PreviewTruncation | python_file_organizer_portfolio_ready_organizer.py:170-173 | when no path holds a line feed, a plan of at most `max_show` moves shows `1 + n` lines and a longer one shows `2 + max_show` |
| Prompt.ProceedIff | python_file_organizer_portfolio_ready_organizer.py:233-235 | the run proceeds exactly when the stripped reply is `y` or `Y`; end of input declines |
| Prompt.StripPaddedY | python_file_organizer_portfolio_ready_organizer.py:233 | surrounding blanks and a line feed are stripped from `Y` |
| Prompt.ProceedAcceptsPaddedY | python_file_organizer_portfolio_ready_organizer.py:233 | ` Y ` followed by a line feed is accepted |
| Prompt.ProceedAcceptsY | python_file_organizer_portfolio_ready_organizer.py:233 | `y` is accepted |
| Prompt.ProceedRejectsYes | python_file_organizer_portfolio_ready_organizer.py:233 | `yes` is declined |
| Prompt.ProceedRejectsEmpty | python_file_organizer_portfolio_ready_organizer.py:232-236 | an empty reply and end of input are declined |
| Cli.Verdicts | python_file_organizer_portfolio_ready_organizer.py:157-160 | there are as many verdicts as planned moves |
| Cli.Run | python_file_organizer_portfolio_ready_organizer.py:195-248 | without applying, the exit code is 0 or 1, and after applying it is the code the summary determines; the template is written exactly when its file does not exist; a preview is shown exactly for a non-empty plan; an applied plan is non-empty and summarised move by move |
| Cli.AppliesIffGates | python_file_organizer_portfolio_ready_organizer.py:198-240 | files are moved exactly when the run is not writing a template, the source is an existing directory, the rules load, the plan is non-empty, it is not a dry run, and `--yes` or an accepted prompt confirms it |
| Cli.ErrorExitIff | python_file_organizer_portfolio_ready_organizer.py:198-210 | for parsed arguments and a planning phase whose filesystem calls succeed, exit code 1 means exactly a refused template, a missing or non-directory source, or unloadable rules |
| Cli.AppliedCodeIff | python_file_organizer_portfolio_ready_organizer.py:243-248 | after applying, the code is 2 exactly when a move failed, and 0 otherwise |
| Cli.PartialFailureExitIff | python_file_organizer_portfolio_ready_organizer.py:240-248 | for parsed arguments and a planning phase whose filesystem calls succeed, exit code 2 means exactly that the plan was applied and at least one move failed |
| Cli.AppliedSummaryCountsPlan | python_file_organizer_portfolio_ready_organizer.py:240 | an applied run's summary accounts for every planned move once |

## Left out

- Moving files (`shutil.move`) and the filesystem after the moves. The platform's verdict per move stands in for both. The `mkdir` inside `apply_moves` is also left out.
- Path resolution: `expanduser`, `resolve` and symbolic links. Paths are taken as already absolute and resolved.
- The order in which `rglob` and `iterdir` yield entries. The listing is an input sequence.
- Creating directories while `rglob` is still iterating. The listing is fixed before planning.
- JSON parsing and writing. A rules document is the sequence of `data.items()` pairs, or a failure with its reason. Those raw keys are distinct: `json.load` merges a key repeated in the JSON text into one entry, at its first position and with its last value. That merging is part of the parser and is not modelled.
- Rule values that are not strings. The model's values are strings, and they are kept unchanged as the code does.
- The bytes that `write_default_rules` writes, and any I/O error while writing.
- Command-line parsing (`argparse`). The parsed arguments are an input; `--unknown-folder` defaults to `others` there. A usage error, such as a missing `--source`, makes `argparse` exit with status 2, not the 1 the module docstring announces for bad arguments. Cli.PartialFailureExitIff speaks only of runs whose arguments parsed.
- The text printed to standard output and standard error, except the preview.
- The "Done" summary line and the listing of errors.
- Keyboard interrupts at the prompt. Only end of input is modelled.
- Unicode case folding and whitespace. `lower` and `strip` are modelled on ASCII letters and ASCII whitespace.
- Windows backslash separators, which `HIDDEN_PATTERN` does not recognise.
- Names ending in a dot. Newer Python versions give them a suffix of `.`; the model follows the older rule that such names have no suffix.
- Failures of the filesystem calls made while planning: a `mkdir` of a category directory that raises (`FileExistsError` when a regular file occupies the path, `PermissionError` on a read-only destination, `NotADirectoryError` when `--dest` is a regular file), or a directory listing that raises. Planning runs before the dry-run check, so any of these ends `main` with status 1, even under `--dry-run`. In the model, `Paths.Mkdir` and the listing always succeed. Cli.ErrorExitIff and Cli.PartialFailureExitIff therefore describe only runs in which these calls succeed.
- Races with other processes.
- Categories containing `/`, empty categories, `.` and `..`. With `..`, `dest / ".."` is the parent of the destination root, not a new segment. The model treats every category as a single path segment.
- A negative `max_show`. Python's slicing from the end is not modelled; `max_show` is a natural number and `main` always passes 50.
- Preview.PreviewRoundTrip: stated only for paths whose segments hold no line feed. A line feed inside a file name splits a preview line in two.
- Preview.PreviewTruncation: stated only for paths whose segments hold no line feed, for the same reason.
- Enumerate.IterFiles: its contract states only the size bound. Which paths it yields is stated by `Enumerate.IterFilesIff`.
- Cli.ErrorExitIff: exact only for runs whose arguments parsed and whose planning-time `mkdir` calls and directory listing succeeded. A failure of those calls also ends the run with status 1.
- Cli.PartialFailureExitIff: exact only for runs whose arguments parsed. An `argparse` usage error also exits with status 2.
- Cli.Verdicts: the contract states only the number of verdicts. That verdict `k` is the platform's verdict on move `k` is stated by the body alone, because the platform's behaviour is an input to the model and has no independent definition to compare it with.

=== FILE: cli.dfy ===
/**
 * The command-line run: the optional template-writing mode, the source
 * check, rule loading, planning, the preview, the dry-run and confirmation
 * gates, applying the moves and the exit code. Everything the run learns
 * from its environment is a field of `World`.
 */
module Cli {
  import opened Wrappers
  import opened Paths
  import opened Rules
  import opened Enumerate
  import opened Planner
  import opened Mover
  import opened Preview
  import opened Prompt

  /** The parsed command line. `dest`, `rules` and `writeDefaultRules` are
      absent when the option is not given. */
  datatype Args = Args(
    source: Path,
    dest: Option<Path>,
    rules: Option<Path>,
    unknownFolder: string,
    recursive: bool,
    includeHidden: bool,
    dryRun: bool,
    yes: bool,
    writeDefaultRules: Option<Path>)

  /** What the run observes: the existing paths and which are directories,
      the rules document as read and parsed, the listings of the source (its
      direct children and its whole subtree), the operator's reply to the
      prompt (`None` at end of input) and the platform's verdict on each
      move. */
  datatype World = World(
    fs: FileSystem,
    dirs: set<Path>,
    rulesDocument: Result<RuleItems, string>,
    children: seq<Entry>,
    subtree: seq<Entry>,
    answer: Option<string>,
    moveResult: MovePlan -> MoveOutcome)

  /** The observable effect of a run: exit code, the template written (if
      any), the plan, the preview shown and the summary of applied moves. */
  datatype Outcome = Outcome(
    code: int,
    wroteRules: Option<Path>,
    plan: seq<MovePlan>,
    preview: Option<string>,
    summary: Option<Summary>)

  function Exit(code: int): Outcome {
    Outcome(code, None, [], None, None)
  }

  /** The moves `main` plans for these arguments. */
  function PlanFor(args: Args, world: World, rules: RuleMap): seq<MovePlan> {
    var dest := if args.dest.Some? then args.dest.value else args.source;
    var listing := if args.recursive then world.subtree else world.children;
    var files := IterFiles(args.source, listing, args.recursive, args.includeHidden);
    PlanMoves(files, dest, rules, args.unknownFolder, world.fs).moves
  }

  /** The platform's verdicts, aligned with the plan. */
  function Verdicts(plan: seq<MovePlan>, world: World): (r: seq<MoveOutcome>)
    ensures |r| == |plan|
  {
    seq(|plan|, k requires 0 <= k < |plan| => world.moveResult(plan[k]))
  }

  /** The exit code after applying: 2 when some move failed, else 0. */
  function AppliedCode(s: Summary): int {
    if |s.errors| > 0 then (if s.failed > 0 then 2 else 0) else 0
  }

  /** `main` */
  function Run(args: Args, world: World): (o: Outcome)
    ensures o.summary.None? ==> o.code in {0, 1}
    ensures o.summary.Some? ==> o.code == AppliedCode(o.summary.value)
    ensures o.wroteRules.Some? <==> args.writeDefaultRules.Some? && args.writeDefaultRules.value !in world.fs
    ensures o.wroteRules.Some? ==> o.wroteRules == args.writeDefaultRules && o.code == 0
    ensures o.preview.Some? <==> |o.plan| > 0
    ensures o.summary.Some? ==> o.preview.Some? && |o.plan| > 0
    ensures o.summary.Some? ==> o.summary.value == Tally(o.plan, Verdicts(o.plan, world))
  {
    if args.writeDefaultRules.Some? then
      if args.writeDefaultRules.value in world.fs then Exit(1)
      else Outcome(0, args.writeDefaultRules, [], None, None)
    else if args.source !in world.fs || args.source !in world.dirs then Exit(1)
    else
      var loaded := LoadRules(args.rules, world.rulesDocument);
      if loaded.Failure? then Exit(1)
      else
        var plan := PlanFor(args, world, loaded.value);
        if |plan| == 0 then Exit(0)
        else
          var preview := Some(HumanPreview(plan, DefaultMaxShow));
          if args.dryRun || (!args.yes && !Proceed(world.answer)) then
            Outcome(0, None, plan, preview, None)
          else
            var s := Tally(plan, Verdicts(plan, world));
            Outcome(AppliedCode(s), None, plan, preview, Some(s))
  }

  /** All the gates `main` passes before it moves anything. */
  predicate WillApply(args: Args, world: World) {
    && args.writeDefaultRules.None?
    && args.source in world.fs && args.source in world.dirs
    && LoadRules(args.rules, world.rulesDocument).Success?
    && |PlanFor(args, world, LoadRules(args.rules, world.rulesDocument).value)| > 0
    && !args.dryRun
    && (args.yes || Proceed(world.answer))
  }

  /** Files are moved exactly when every gate is passed; a dry run never
      moves anything. */
  lemma AppliesIffGates(args: Args, world: World)
    ensures Run(args, world).summary.Some? <==> WillApply(args, world)
    ensures args.dryRun ==> Run(args, world).summary.None?
  {
  }

  /** Exit code 1 signals exactly a refused template, a missing source
      directory or unloadable rules. */
  lemma ErrorExitIff(args: Args, world: World)
    ensures Run(args, world).code == 1 <==>
              if args.writeDefaultRules.Some? then args.writeDefaultRules.value in world.fs
              else args.source !in world.fs || args.source !in world.dirs
                   || LoadRules(args.rules, world.rulesDocument).Failure?
  {
    if args.writeDefaultRules.None? && args.source in world.fs && args.source in world.dirs {
      var loaded := LoadRules(args.rules, world.rulesDocument);
      if loaded.Success? {
        var plan := PlanFor(args, world, loaded.value);
        if |plan| > 0 && !(args.dryRun || (!args.yes && !Proceed(world.answer))) {
          AppliedCodeIff(Tally(plan, Verdicts(plan, world)));
        }
      }
    }
  }

  /** After applying, the exit code is 2 exactly when some move failed. */
  lemma AppliedCodeIff(s: Summary)
    requires |s.errors| == s.failed
    ensures AppliedCode(s) == 2 <==> s.failed > 0
    ensures AppliedCode(s) in {0, 2}
  {
  }

  /** Exit code 2 signals exactly an applied plan with at least one failed move. */
  lemma PartialFailureExitIff(args: Args, world: World)
    ensures Run(args, world).code == 2 <==>
              Run(args, world).summary.Some? && Run(args, world).summary.value.failed > 0
  {
    var o := Run(args, world);
    if o.summary.Some? {
      AppliedCodeIff(o.summary.value);
    }
  }

  /** When applied, the summary counts every planned move once. */
  lemma AppliedSummaryCountsPlan(args: Args, world: World)
    requires WillApply(args, world)
    ensures Run(args, world).summary.value.ok + Run(args, world).summary.value.failed == |Run(args, world).plan|
  {
    AppliesIffGates(args, world);
  }
}

=== FILE: enumerate.dfy ===
/**
 * Enumeration of candidate files below the source root, with the
 * hidden-entry filter. The platform's directory listing is a given sequence
 * of entries (relative path and whether it is a regular file) in the order
 * the platform yields them: the direct children for a flat scan, the whole
 * subtree for a recursive one.
 */
module Enumerate {
  import opened Text
  import opened Paths
  import opened Sequences

  /** One entry of a directory listing, relative to the scanned root. */
  datatype Entry = Entry(rel: Path, isFile: bool)

  /** A dot at position `k + 1` right after a separator at `k`. */
  predicate SlashDotAt(s: string, k: int) {
    0 <= k && k + 1 < |s| && s[k] == '/' && s[k + 1] == '.'
  }

  /** `HIDDEN_PATTERN.search(s)` for the pattern `(^\.|/\.)`: the string starts
      with a dot, or a dot follows a separator somewhere. */
  predicate HiddenPatternMatches(s: string) {
    (|s| > 0 && s[0] == '.') || exists k :: 0 <= k < |s| - 1 && SlashDotAt(s, k)
  }

  predicate StartsWithDot(s: string) {
    |s| > 0 && s[0] == '.'
  }

  /** Some segment of the relative path names a hidden entry. */
  predicate HasHiddenSegment(rel: Path) {
    exists i :: 0 <= i < |rel| && StartsWithDot(rel[i])
  }

  /** Joining `a` and `b` with a separator, where `a` holds no separator:
      the pattern matches exactly when `a` starts with a dot or it matches `b`. */
  lemma MatchesAfterSeparator(a: string, b: string)
    requires '/' !in a
    ensures HiddenPatternMatches(a + "/" + b) <==> StartsWithDot(a) || HiddenPatternMatches(b)
  {
    var s := a + "/" + b;
    if HiddenPatternMatches(s) && !StartsWithDot(a) {
      var k :| 0 <= k < |s| - 1 && SlashDotAt(s, k);
      if k < |a| {
        assert false;
      } else if k == |a| {
        assert b[0] == s[k + 1];
      } else {
        assert s[k] == b[k - |a| - 1] && s[k + 1] == b[k - |a|];
        assert SlashDotAt(b, k - |a| - 1);
      }
    }
    if StartsWithDot(a) {
      assert s[0] == a[0];
    } else if StartsWithDot(b) {
      assert SlashDotAt(s, |a|);
    } else if HiddenPatternMatches(b) {
      var k :| 0 <= k < |b| - 1 && SlashDotAt(b, k);
      assert s[|a| + 1 + k] == b[k] && s[|a| + 2 + k] == b[k + 1];
      assert SlashDotAt(s, |a| + 1 + k);
    }
  }

  /** On the text of a relative path, the pattern matches exactly when some
      segment starts with a dot. */
  lemma {:induction false} HiddenPatternIffHiddenSegment(rel: Path)
    requires ValidSegments(rel)
    ensures HiddenPatternMatches(Join(rel, '/')) <==> HasHiddenSegment(rel)
    decreases |rel|
  {
    if |rel| == 0 {
      assert Join(rel, '/') == "";
    } else if |rel| == 1 {
      var s := rel[0];
      assert Join(rel, '/') == s;
      forall k | 0 <= k < |s| - 1 ensures !SlashDotAt(s, k) {
        assert s[k] in s;
      }
      assert HasHiddenSegment(rel) <==> StartsWithDot(rel[0]);
    } else {
      var tail := rel[1..];
      assert Join(rel, '/') == rel[0] + "/" + Join(tail, '/');
      assert ValidSegments(tail) by {
        forall i | 0 <= i < |tail| ensures '/' !in tail[i] {
          assert tail[i] == rel[i + 1];
        }
      }
      MatchesAfterSeparator(rel[0], Join(tail, '/'));
      HiddenPatternIffHiddenSegment(tail);
      if HasHiddenSegment(tail) {
        var i :| 0 <= i < |tail| && StartsWithDot(tail[i]);
        assert rel[i + 1] == tail[i];
      }
      if HasHiddenSegment(rel) && !StartsWithDot(rel[0]) {
        var i :| 0 <= i < |rel| && StartsWithDot(rel[i]);
        assert tail[i - 1] == rel[i];
      }
    }
  }

  /** For a file directly under the root, the recursive scan's pattern test
      and the flat scan's name test agree. */
  lemma FlatAndRecursiveAgree(name: string)
    requires '/' !in name
    ensures HiddenPatternMatches(Join([name], '/')) <==> StartsWithDot(name)
  {
    HiddenPatternIffHiddenSegment([name]);
    assert HasHiddenSegment([name]) <==> StartsWithDot([name][0]);
  }

  /** Whether `iter_files` yields this entry. */
  predicate Yields(e: Entry, recursive: bool, includeHidden: bool) {
    && e.isFile
    && (includeHidden
        || (if recursive then !HiddenPatternMatches(Join(e.rel, '/'))
            else !StartsWithDot(Name(e.rel))))
  }

  /** The entries `iter_files` yields, in listing order. */
  function KeptEntries(listing: seq<Entry>, recursive: bool, includeHidden: bool): (r: seq<Entry>)
    ensures IsSubsequence(r, listing)
    decreases |listing|
  {
    if |listing| == 0 then []
    else
      var rest := KeptEntries(listing[1..], recursive, includeHidden);
      if Yields(listing[0], recursive, includeHidden) then [listing[0]] + rest else rest
  }

  /** An entry is kept exactly when it is listed and `iter_files` yields it. */
  lemma {:induction false} KeptEntriesIff(listing: seq<Entry>, recursive: bool, includeHidden: bool, e: Entry)
    ensures e in KeptEntries(listing, recursive, includeHidden) <==> e in listing && Yields(e, recursive, includeHidden)
    decreases |listing|
  {
    if |listing| > 0 {
      KeptEntriesIff(listing[1..], recursive, includeHidden, e);
      assert listing == [listing[0]] + listing[1..];
    }
  }

  /** `iter_files`: the full paths of the yielded entries. */
  function IterFiles(root: Path, listing: seq<Entry>, recursive: bool, includeHidden: bool): (files: seq<Path>)
    ensures |files| <= |listing|
  {
    var kept := KeptEntries(listing, recursive, includeHidden);
    SubsequenceBounds(kept, listing);
    seq(|kept|, k requires 0 <= k < |kept| => root + kept[k].rel)
  }

  /** The paths `iter_files` yields are exactly the root joined with the
      relative path of a listed entry that passes the filter. */
  lemma IterFilesIff(root: Path, listing: seq<Entry>, recursive: bool, includeHidden: bool, p: Path)
    ensures p in IterFiles(root, listing, recursive, includeHidden) <==>
              exists e :: e in listing && Yields(e, recursive, includeHidden) && p == root + e.rel
  {
    var kept := KeptEntries(listing, recursive, includeHidden);
    var files := IterFiles(root, listing, recursive, includeHidden);
    assert |files| == |kept|;
    if p in files {
      var k :| 0 <= k < |files| && files[k] == p;
      KeptEntriesIff(listing, recursive, includeHidden, kept[k]);
    }
    if exists e :: e in listing && Yields(e, recursive, includeHidden) && p == root + e.rel {
      var e :| e in listing && Yields(e, recursive, includeHidden) && p == root + e.rel;
      KeptEntriesIff(listing, recursive, includeHidden, e);
      var k :| 0 <= k < |kept| && kept[k] == e;
      assert files[k] == p;
    }
  }

  /** With hidden entries excluded, a recursive scan yields no file that has a
      hidden directory or name anywhere below the root, and yields every
      other regular file of the listing. */
  lemma RecursiveScanSkipsHidden(listing: seq<Entry>, e: Entry)
    requires e in listing && ValidSegments(e.rel)
    ensures e in KeptEntries(listing, true, false) <==> e.isFile && !HasHiddenSegment(e.rel)
  {
    KeptEntriesIff(listing, true, false, e);
    HiddenPatternIffHiddenSegment(e.rel);
  }

  /** With hidden entries excluded, a flat scan yields exactly the regular
      files whose name does not start with a dot. */
  lemma FlatScanSkipsHidden(listing: seq<Entry>, e: Entry)
    requires e in listing
    ensures e in KeptEntries(listing, false, false) <==> e.isFile && !StartsWithDot(Name(e.rel))
  {
    KeptEntriesIff(listing, false, false, e);
  }

  /** With hidden entries included, every regular file is yielded, in either mode. */
  lemma IncludeHiddenKeepsAllFiles(listing: seq<Entry>, e: Entry, recursive: bool)
    requires e in listing
    ensures e in KeptEntries(listing, recursive, true) <==> e.isFile
  {
    KeptEntriesIff(listing, recursive, true, e);
  }
}

=== FILE: mover.dfy ===
/**
 * The mover: executes the plan in order with best-effort semantics. Whether
 * an individual move succeeds is decided by the platform (permissions, a
 * vanished source, a full disk, ...); the model receives those outcomes as a
 * sequence aligned with the plan.
 */
module Mover {
  import opened Text
  import opened Paths
  import opened Planner

  /** What the platform's move primitive did with one planned move. */
  datatype MoveOutcome = Moved | Failed(reason: string)

  /** The counts of moved and failed files and the failure messages. */
  datatype Summary = Summary(ok: nat, failed: nat, errors: seq<string>)

  const FailurePrefix: string := "Failed: "

  /** The message recorded for a failed move. */
  function ErrorLine(m: MovePlan, reason: string): (e: string)
    ensures StartsWith(e, FailurePrefix)
  {
    var e := FailurePrefix + PathString(m.src) + " -> " + PathString(m.dst) + " (" + reason + ")";
    assert e[..|FailurePrefix|] == FailurePrefix;
    e
  }

  /** How many of the outcomes are successes. */
  function CountMoved(outcomes: seq<MoveOutcome>): (n: nat)
    ensures n <= |outcomes|
  {
    if |outcomes| == 0 then 0
    else CountMoved(outcomes[..|outcomes| - 1]) + (if outcomes[|outcomes| - 1].Moved? then 1 else 0)
  }

  /** The summary `apply_moves` returns for these outcomes. */
  function Tally(moves: seq<MovePlan>, outcomes: seq<MoveOutcome>): (s: Summary)
    requires |moves| == |outcomes|
    ensures s.ok + s.failed == |moves|
    ensures |s.errors| == s.failed
    ensures s.ok == CountMoved(outcomes)
    ensures forall i :: 0 <= i < |s.errors| ==> StartsWith(s.errors[i], FailurePrefix)
  {
    if |moves| == 0 then Summary(0, 0, [])
    else
      var n := |moves| - 1;
      var s := Tally(moves[..n], outcomes[..n]);
      match outcomes[n]
      case Moved => Summary(s.ok + 1, s.failed, s.errors)
      case Failed(reason) => Summary(s.ok, s.failed + 1, s.errors + [ErrorLine(moves[n], reason)])
  }

  /** `apply_moves`: attempts every move in order; a failure is recorded and
      the next move is still attempted. */
  method ApplyMoves(moves: seq<MovePlan>, outcomes: seq<MoveOutcome>)
    returns (ok: nat, failed: nat, errors: seq<string>)
    requires |moves| == |outcomes|
    ensures ok + failed == |moves|
    ensures |errors| == failed
    ensures ok == CountMoved(outcomes)
    ensures Summary(ok, failed, errors) == Tally(moves, outcomes)
  {
    ok, failed, errors := 0, 0, [];
    var i := 0;
    while i < |moves|
      invariant 0 <= i <= |moves|
      invariant Summary(ok, failed, errors) == Tally(moves[..i], outcomes[..i])
    {
      assert moves[..i + 1][..i] == moves[..i];
      assert outcomes[..i + 1][..i] == outcomes[..i];
      match outcomes[i] {
        case Moved =>
          ok := ok + 1;
        case Failed(reason) =>
          failed := failed + 1;
          errors := errors + [ErrorLine(moves[i], reason)];
      }
      i := i + 1;
    }
    assert moves[..i] == moves && outcomes[..i] == outcomes;
  }

  /** One more move at the end: the summary of the longer plan extends the
      summary of the shorter one by that move's outcome alone. */
  lemma TallySnoc(m: seq<MovePlan>, o: seq<MoveOutcome>, mv: MovePlan, out: MoveOutcome)
    requires |m| == |o|
    ensures out.Moved? ==> Tally(m + [mv], o + [out]) == Tally(m, o).(ok := Tally(m, o).ok + 1)
    ensures out.Failed? ==>
              Tally(m + [mv], o + [out])
              == Tally(m, o).(failed := Tally(m, o).failed + 1,
                              errors := Tally(m, o).errors + [ErrorLine(mv, out.reason)])
  {
    assert (m + [mv])[..|m|] == m && (o + [out])[..|o|] == o;
  }

  /** Splitting the plan splits the summary: counts add up and the failure
      messages of the first part precede those of the second, so a failure
      never stops or reorders later moves. */
  lemma {:induction false} TallyAppend(m1: seq<MovePlan>, o1: seq<MoveOutcome>, m2: seq<MovePlan>, o2: seq<MoveOutcome>)
    requires |m1| == |o1| && |m2| == |o2|
    ensures Tally(m1 + m2, o1 + o2).ok == Tally(m1, o1).ok + Tally(m2, o2).ok
    ensures Tally(m1 + m2, o1 + o2).failed == Tally(m1, o1).failed + Tally(m2, o2).failed
    ensures Tally(m1 + m2, o1 + o2).errors == Tally(m1, o1).errors + Tally(m2, o2).errors
    decreases |m2|
  {
    if |m2| == 0 {
      assert m1 + m2 == m1 && o1 + o2 == o1;
    } else {
      var n := |m2| - 1;
      var mf, of := m2[..n], o2[..n];
      assert m2 == mf + [m2[n]] && o2 == of + [o2[n]];
      assert m1 + m2 == (m1 + mf) + [m2[n]] && o1 + o2 == (o1 + of) + [o2[n]];
      TallyAppend(m1, o1, mf, of);
      TallyAppendStep(m1, o1, mf, of, m2[n], o2[n]);
    }
  }

  /** The inductive step of `TallyAppend`: if the split holds for `m2`, it
      holds for `m2` extended by one move. */
  lemma TallyAppendStep(m1: seq<MovePlan>, o1: seq<MoveOutcome>, m2: seq<MovePlan>, o2: seq<MoveOutcome>,
                        mv: MovePlan, out: MoveOutcome)
    requires |m1| == |o1| && |m2| == |o2|
    requires Tally(m1 + m2, o1 + o2).ok == Tally(m1, o1).ok + Tally(m2, o2).ok
    requires Tally(m1 + m2, o1 + o2).failed == Tally(m1, o1).failed + Tally(m2, o2).failed
    requires Tally(m1 + m2, o1 + o2).errors == Tally(m1, o1).errors + Tally(m2, o2).errors
    ensures Tally((m1 + m2) + [mv], (o1 + o2) + [out]).ok == Tally(m1, o1).ok + Tally(m2 + [mv], o2 + [out]).ok
    ensures Tally((m1 + m2) + [mv], (o1 + o2) + [out]).failed
            == Tally(m1, o1).failed + Tally(m2 + [mv], o2 + [out]).failed
    ensures Tally((m1 + m2) + [mv], (o1 + o2) + [out]).errors
            == Tally(m1, o1).errors + Tally(m2 + [mv], o2 + [out]).errors
  {
    var all, a, b := Tally(m1 + m2, o1 + o2), Tally(m1, o1), Tally(m2, o2);
    var allLong, bLong := Tally((m1 + m2) + [mv], (o1 + o2) + [out]), Tally(m2 + [mv], o2 + [out]);
    TallySnoc(m1 + m2, o1 + o2, mv, out);
    TallySnoc(m2, o2, mv, out);
    if out.Failed? {
      var e := ErrorLine(mv, out.reason);
      assert allLong.errors == all.errors + [e] && bLong.errors == b.errors + [e];
      SnocAssociates(a.errors, b.errors, e);
    } else {
      assert allLong.errors == all.errors && bLong.errors == b.errors;
    }
  }

  /** Appending one element after a concatenation. */
  lemma SnocAssociates<T>(a: seq<T>, b: seq<T>, e: T)
    ensures (a + b) + [e] == a + (b + [e])
  {
  }

  /** One move on its own: a success counts one moved file and records
      nothing; a failure counts one failed file and records its message. */
  lemma TallySingle(m: MovePlan, o: MoveOutcome)
    ensures o.Moved? ==> Tally([m], [o]) == Summary(1, 0, [])
    ensures o.Failed? ==> Tally([m], [o]) == Summary(0, 1, [ErrorLine(m, o.reason)])
  {
    assert [m][..0] == [] && [o][..0] == [];
  }
}

=== FILE: naming.dfy ===
/**
 * Collision-free file names inside a target directory: the name itself when
 * it is free, otherwise `stem (i)suffix` for the smallest counter `i >= 2`
 * whose name is free.
 */
module Naming {
  import opened Text
  import opened Paths

  /** `f"{stem} ({i}){suffix}"` */
  function Candidate(stem: string, i: nat, suffix: string): string {
    stem + " (" + ShowNat(i) + ")" + suffix
  }

  /** Distinct counters give distinct candidate names. */
  lemma CandidateInjective(stem: string, suffix: string, i: nat, j: nat)
    ensures Candidate(stem, i, suffix) == Candidate(stem, j, suffix) ==> i == j
  {
    var a, b := Candidate(stem, i, suffix), Candidate(stem, j, suffix);
    if a == b {
      var di, dj := ShowNat(i), ShowNat(j);
      assert |di| == |dj|;
      var lo := |stem| + 2;
      assert a[lo..lo + |di|] == di;
      assert b[lo..lo + |dj|] == dj;
      ShowNatInjective(i, j);
    }
  }

  /** Every counter from 2 up to, but excluding, `n` names a taken file. */
  predicate AllTakenBelow(taken: set<string>, stem: string, suffix: string, n: nat) {
    forall j: nat :: 2 <= j < n ==> Candidate(stem, j, suffix) in taken
  }

  /** The candidate names for counters 2 .. n-1. */
  function Tried(stem: string, suffix: string, n: nat): set<string> {
    set j: nat | 2 <= j < n :: Candidate(stem, j, suffix)
  }

  /** There are as many candidate names as counters. */
  lemma {:induction false} TriedSize(stem: string, suffix: string, n: nat)
    requires n >= 2
    ensures |Tried(stem, suffix, n)| == n - 2
    decreases n
  {
    if n > 2 {
      TriedSize(stem, suffix, n - 1);
      var c := Candidate(stem, n - 1, suffix);
      if c in Tried(stem, suffix, n - 1) {
        var j: nat :| 2 <= j < n - 1 && Candidate(stem, j, suffix) == c;
        CandidateInjective(stem, suffix, j, n - 1);
      }
      assert Tried(stem, suffix, n) == Tried(stem, suffix, n - 1) + {c};
    }
  }

  /** Each further counter adds a candidate name not tried before. */
  lemma TriedGrows(stem: string, suffix: string, i: nat)
    requires i >= 2
    ensures Candidate(stem, i, suffix) !in Tried(stem, suffix, i)
    ensures Tried(stem, suffix, i + 1) == Tried(stem, suffix, i) + {Candidate(stem, i, suffix)}
  {
    var c := Candidate(stem, i, suffix);
    if c in Tried(stem, suffix, i) {
      var j: nat :| 2 <= j < i && Candidate(stem, j, suffix) == c;
      CandidateInjective(stem, suffix, j, i);
    }
  }

  /** Counting argument: `taken` cannot hold the candidates for more than
      `|taken|` counters, so the search stops by counter `|taken| + 2`. */
  lemma CounterBound(taken: set<string>, stem: string, suffix: string, n: nat)
    requires n >= 2
    requires AllTakenBelow(taken, stem, suffix, n)
    ensures n - 2 <= |taken|
  {
    TriedSize(stem, suffix, n);
    var t := Tried(stem, suffix, n);
    assert t <= taken;
    assert taken == t + (taken - t);
    assert t !! (taken - t);
  }

  /** The smallest counter, starting at `i`, whose candidate is free. */
  function FirstFree(taken: set<string>, stem: string, suffix: string, i: nat): (k: nat)
    requires i >= 2
    requires AllTakenBelow(taken, stem, suffix, i)
    ensures k >= i
    ensures Candidate(stem, k, suffix) !in taken
    ensures AllTakenBelow(taken, stem, suffix, k)
    decreases |taken| + 2 - i
  {
    if Candidate(stem, i, suffix) !in taken then i
    else
      CounterBound(taken, stem, suffix, i + 1);
      FirstFree(taken, stem, suffix, i + 1)
  }

  /** A free counter with all smaller counters (from 2) taken is unique. */
  lemma LeastFreeUnique(taken: set<string>, stem: string, suffix: string, a: nat, b: nat)
    requires a >= 2 && b >= 2
    requires Candidate(stem, a, suffix) !in taken && AllTakenBelow(taken, stem, suffix, a)
    requires Candidate(stem, b, suffix) !in taken && AllTakenBelow(taken, stem, suffix, b)
    ensures a == b
  {
  }

  /** The name `unique_destination` chooses among the names `taken` in the
      target directory. */
  function UniqueName(taken: set<string>, name: string): (r: string)
    ensures r !in taken
    ensures name !in taken ==> r == name
    ensures name in taken ==>
              exists i: nat :: 2 <= i
                && r == Candidate(Stem(name), i, Suffix(name))
                && AllTakenBelow(taken, Stem(name), Suffix(name), i)
  {
    if name !in taken then name
    else Candidate(Stem(name), FirstFree(taken, Stem(name), Suffix(name), 2), Suffix(name))
  }

  /** `unique_destination`: probes `name`, then `stem (2)suffix`,
      `stem (3)suffix`, ... until a free one is found. */
  method UniqueDestination(taken: set<string>, name: string) returns (r: string)
    ensures r !in taken
    ensures name !in taken ==> r == name
    ensures name in taken ==>
              exists i: nat :: 2 <= i
                && r == Candidate(Stem(name), i, Suffix(name))
                && AllTakenBelow(taken, Stem(name), Suffix(name), i)
    ensures r == UniqueName(taken, name)
  {
    if name !in taken {
      return name;
    }
    var stem := Stem(name);
    var suffix := Suffix(name);
    var i: nat := 2;
    ghost var tried: set<string> := {};
    while Candidate(stem, i, suffix) in taken
      invariant i >= 2
      invariant tried == Tried(stem, suffix, i)
      invariant tried <= taken
      invariant AllTakenBelow(taken, stem, suffix, i)
      decreases |taken - tried|
    {
      var c := Candidate(stem, i, suffix);
      TriedGrows(stem, suffix, i);
      tried := tried + {c};
      i := i + 1;
    }
    r := Candidate(stem, i, suffix);
    LeastFreeUnique(taken, stem, suffix, i, FirstFree(taken, stem, suffix, 2));
  }

  /** The counter `(1)` is never used: a taken name is replaced by a candidate
      with a counter of at least 2. */
  lemma NeverCounterOne(taken: set<string>, name: string)
    requires name in taken
    ensures UniqueName(taken, name) != Candidate(Stem(name), 1, Suffix(name))
  {
    var i: nat :| 2 <= i
      && UniqueName(taken, name) == Candidate(Stem(name), i, Suffix(name))
      && AllTakenBelow(taken, Stem(name), Suffix(name), i);
    CandidateInjective(Stem(name), Suffix(name), i, 1);
  }

  /** A renamed file keeps its suffix, so it keeps its category. */
  lemma UniqueNameKeepsSuffix(taken: set<string>, name: string)
    requires Suffix(name) != ""
    ensures Suffix(UniqueName(taken, name)) == Suffix(name)
  {
    if name in taken {
      var stem, suffix := Stem(name), Suffix(name);
      StemSuffixSplit(name);
      var k := FirstFree(taken, stem, suffix, 2);
      var a := stem + " (" + ShowNat(k) + ")";
      var w := suffix[1..];
      assert suffix == "." + w;
      assert Candidate(stem, k, suffix) == a + "." + w;
      SuffixOfFinalDot(a, w);
    }
  }

  /** With `report.pdf` and `report (2).pdf` present, the next file of that
      name becomes `report (3).pdf`. */
  lemma UniqueNameExample()
    ensures UniqueName({"report.pdf", "report (2).pdf"}, "report.pdf") == "report (3).pdf"
  {
    var taken := {"report.pdf", "report (2).pdf"};
    SuffixOfFinalDot("report", "pdf");
    assert "report" + "." + "pdf" == "report.pdf";
    assert ShowNat(2) == "2" && ShowNat(3) == "3";
    assert Candidate("report", 2, ".pdf") == "report (2).pdf";
    assert Candidate("report", 3, ".pdf") == "report (3).pdf";
    assert AllTakenBelow(taken, "report", ".pdf", 3);
    LeastFreeUnique(taken, "report", ".pdf", 3, FirstFree(taken, "report", ".pdf", 2));
  }
}

=== FILE: paths.dfy ===
/**
 * Paths and the abstract filesystem.
 *
 * A path is the sequence of its name segments below the filesystem root, so
 * `/home/u/a.txt` is `["home", "u", "a.txt"]` and the root itself is `[]`.
 * The filesystem is the finite set of paths that exist (files and
 * directories alike); `Path.exists()` is membership.
 */
module Paths {
  import opened Text

  type Path = seq<string>

  type FileSystem = set<Path>

  /** Path segments never contain the separator. */
  predicate ValidSegments(p: Path) {
    forall i :: 0 <= i < |p| ==> '/' !in p[i]
  }

  /** `p.name`: the final segment, empty for the root. */
  function Name(p: Path): string {
    if |p| == 0 then "" else p[|p| - 1]
  }

  /** `p.parent` */
  function Parent(p: Path): Path {
    if |p| == 0 then p else p[..|p| - 1]
  }

  /** `str(p)` for an absolute path. */
  function PathString(p: Path): string {
    "/" + Join(p, '/')
  }

  /** `s.rfind('.')`: the index of the last dot, or -1 when there is none. */
  function LastDot(s: string): (r: int)
    ensures -1 <= r < |s|
    ensures r >= 0 ==> s[r] == '.'
    ensures forall k :: r < k < |s| ==> s[k] != '.'
  {
    if |s| == 0 then -1
    else if s[|s| - 1] == '.' then |s| - 1
    else LastDot(s[..|s| - 1])
  }

  /** `PurePath(name).suffix`: from the last dot on, provided that dot is
      neither the first nor the last character; otherwise empty. */
  function Suffix(name: string): string {
    var i := LastDot(name);
    if 0 < i < |name| - 1 then name[i..] else ""
  }

  /** `PurePath(name).stem`: the name without its suffix. */
  function Stem(name: string): string {
    var i := LastDot(name);
    if 0 < i < |name| - 1 then name[..i] else name
  }

  /** Stem and suffix split a name; a non-empty suffix is one dot followed by
      at least one dot-free character, behind a non-empty stem. */
  lemma StemSuffixSplit(name: string)
    ensures Stem(name) + Suffix(name) == name
    ensures Suffix(name) != "" ==>
              && |Suffix(name)| >= 2
              && Suffix(name)[0] == '.'
              && '.' !in Suffix(name)[1..]
              && |Stem(name)| > 0
  {
    var s := Suffix(name);
    if s != "" {
      forall k | 1 <= k < |s| ensures s[k] != '.' {
        assert s[k] == name[LastDot(name) + k];
      }
    }
  }

  /** The suffix of `a + "." + w` is `"." + w` whenever `a` is non-empty and
      `w` is a non-empty run without dots: only the final suffix counts. */
  lemma SuffixOfFinalDot(a: string, w: string)
    requires |a| > 0 && |w| > 0 && '.' !in w
    ensures Suffix(a + "." + w) == "." + w
    ensures Stem(a + "." + w) == a
  {
    var name := a + "." + w;
    var i := LastDot(name);
    assert name[|a|] == '.';
    forall k | |a| < k < |name| ensures name[k] != '.' {
      assert name[k] == w[k - |a| - 1];
    }
    assert i == |a|;
    assert name[i..] == "." + w;
  }

  /** A name without a dot after its first character has no suffix (this
      covers `notes` as well as `.env`). */
  lemma NoSuffixWithoutInnerDot(name: string)
    requires forall k :: 0 < k < |name| ==> name[k] != '.'
    ensures Suffix(name) == ""
    ensures Stem(name) == name
  {
  }

  /** Lower-casing commutes with taking the suffix (case folding never
      creates or removes a dot). */
  lemma SuffixOfLower(name: string)
    ensures Suffix(Lower(name)) == Lower(Suffix(name))
  {
    var l := Lower(name);
    var i := LastDot(name);
    assert LastDot(l) == i;
    if 0 < i < |name| - 1 {
      assert Lower(name[i..]) == l[i..];
    }
  }

  /** All ancestors of `d` below the root, and `d` itself. */
  function Ancestors(d: Path): (r: set<Path>)
    ensures forall p :: p in r <==> 1 <= |p| <= |d| && p == d[..|p|]
  {
    set k | 1 <= k <= |d| :: d[..k]
  }

  /** `d.mkdir(parents=True, exist_ok=True)` */
  function Mkdir(fs: FileSystem, d: Path): (r: FileSystem)
    ensures fs <= r
    ensures |d| > 0 ==> d in r
    ensures Ancestors(d) <= r
    ensures forall p :: p in r && p !in fs ==> 1 <= |p| <= |d| && p == d[..|p|]
  {
    fs + Ancestors(d)
  }

  /** The names present directly inside `dir`. */
  function ChildNames(fs: FileSystem, dir: Path): (r: set<string>)
    ensures forall n :: n in r <==> dir + [n] in fs
  {
    var r := set p | p in fs && |p| == |dir| + 1 && p[..|dir|] == dir :: p[|dir|];
    assert forall n :: dir + [n] in fs ==> (dir + [n])[..|dir|] == dir && (dir + [n])[|dir|] == n;
    assert forall n :: n in r ==> dir + [n] in fs by {
      forall n | n in r ensures dir + [n] in fs {
        var p :| p in fs && |p| == |dir| + 1 && p[..|dir|] == dir && p[|dir|] == n;
        assert p == dir + [n];
      }
    }
    r
  }
}

=== FILE: planner.dfy ===
/**
 * The planner: for each enumerated file, in order, pick its category, create
 * the category directory, and choose a collision-free destination name
 * against the filesystem as it stands at that moment. The filesystem changes
 * during planning only through those directory creations.
 */
module Planner {
  import opened Wrappers
  import opened Paths
  import opened Sequences
  import opened Rules
  import opened Naming

  /** `MovePlan`: an intended, not yet executed move. */
  datatype MovePlan = MovePlan(src: Path, dst: Path)

  /** The plan and the filesystem after the planner's directory creations. */
  datatype Planned = Planned(moves: seq<MovePlan>, fs: FileSystem)

  /** The directory a file of this category goes to. */
  function TargetDir(dest: Path, category: string): Path {
    dest + [category]
  }

  function Sources(moves: seq<MovePlan>): (r: seq<Path>)
    ensures |r| == |moves|
    ensures forall k :: 0 <= k < |moves| ==> r[k] == moves[k].src
  {
    if |moves| == 0 then [] else [moves[0].src] + Sources(moves[1..])
  }

  /** The categories of the given files. */
  function Categories(files: seq<Path>, rules: RuleMap, unknown: string): set<string> {
    if |files| == 0 then {}
    else {Categorize(files[0], rules, unknown)} + Categories(files[1..], rules, unknown)
  }

  /** A path the planner may create: an ancestor of the destination root, or
      the directory of one of the given categories. */
  predicate CreatedDir(p: Path, dest: Path, categories: set<string>) {
    && 1 <= |p| <= |dest| + 1
    && (|p| <= |dest| ==> p == dest[..|p|])
    && (|p| == |dest| + 1 ==> p[..|dest|] == dest && p[|dest|] in categories)
  }

  /** Where `src` is planned to go when checked against the filesystem `fs`:
      its category directory, under the name `unique_destination` picks there. */
  function Destination(fs: FileSystem, dest: Path, rules: RuleMap, unknown: string, src: Path): (dst: Path)
    ensures Parent(dst) == TargetDir(dest, Categorize(src, rules, unknown))
    ensures dst !in fs
    ensures |dst| == |dest| + 2
  {
    var dir := TargetDir(dest, Categorize(src, rules, unknown));
    dir + [UniqueName(ChildNames(fs, dir), Name(src))]
  }

  /** Adding only paths no longer than `dest + [c]` leaves the contents of
      every category directory unchanged. */
  lemma ChildrenUnaffected(fs: FileSystem, fs': FileSystem, dest: Path, dir: Path)
    requires fs <= fs'
    requires forall p :: p in fs' && p !in fs ==> |p| <= |dest| + 1
    requires |dir| == |dest| + 1
    ensures ChildNames(fs', dir) == ChildNames(fs, dir)
  {
    forall n ensures n in ChildNames(fs', dir) <==> n in ChildNames(fs, dir) {
      assert |dir + [n]| == |dest| + 2;
    }
  }

  /** Destinations chosen against `fs'` are those chosen against `fs` when
      `fs'` only adds paths no longer than a category directory. */
  lemma DestinationStable(fs: FileSystem, fs': FileSystem, dest: Path, rules: RuleMap, unknown: string, src: Path)
    requires fs <= fs'
    requires forall p :: p in fs' && p !in fs ==> |p| <= |dest| + 1
    ensures Destination(fs', dest, rules, unknown, src) == Destination(fs, dest, rules, unknown, src)
  {
    ChildrenUnaffected(fs, fs', dest, TargetDir(dest, Categorize(src, rules, unknown)));
  }

  /** One iteration of the planning loop: the move planned for `file` (none
      when source and destination coincide) and the filesystem afterwards. */
  function PlanStep(file: Path, dest: Path, rules: RuleMap, unknown: string, fs: FileSystem)
    : (r: (Option<MovePlan>, FileSystem))
    ensures fs <= r.1
    ensures forall p :: p in r.1 && p !in fs ==>
              CreatedDir(p, dest, {Categorize(file, rules, unknown)})
    ensures forall p :: p in r.1 && p !in fs ==> |p| <= |dest| + 1
    ensures r.0.Some? ==> r.0.value.src == file && r.0.value.dst !in r.1 && r.0.value.src != r.0.value.dst
    ensures r.0.Some? ==> Parent(r.0.value.dst) == TargetDir(dest, Categorize(file, rules, unknown))
    ensures r.0.None? ==> file !in r.1
    ensures r.0.Some? ==> r.0.value.dst == Destination(fs, dest, rules, unknown, file)
  {
    var category := Categorize(file, rules, unknown);
    var dir := TargetDir(dest, category);
    var fs' := Mkdir(fs, dir);
    var dst := dir + [UniqueName(ChildNames(fs', dir), Name(file))];
    ChildrenUnaffected(fs, fs', dest, dir);
    assert Parent(dst) == dir;
    if file == dst then (None, fs') else (Some(MovePlan(file, dst)), fs')
  }

  /** `plan_moves` over the enumerated files, threading the filesystem. */
  function PlanMoves(files: seq<Path>, dest: Path, rules: RuleMap, unknown: string, fs: FileSystem)
    : (r: Planned)
    ensures |r.moves| <= |files|
    ensures fs <= r.fs
    ensures forall p :: p in r.fs && p !in fs ==> |p| <= |dest| + 1
    decreases |files|
  {
    if |files| == 0 then Planned([], fs)
    else
      var step := PlanStep(files[0], dest, rules, unknown, fs);
      var rest := PlanMoves(files[1..], dest, rules, unknown, step.1);
      var moves := if step.0.Some? then [step.0.value] + rest.moves else rest.moves;
      Planned(moves, rest.fs)
  }

  /** The plan lists sources in enumeration order, each file at most once. */
  lemma {:induction false} PlanSourcesInOrder(files: seq<Path>, dest: Path, rules: RuleMap, unknown: string, fs: FileSystem)
    ensures IsSubsequence(Sources(PlanMoves(files, dest, rules, unknown, fs).moves), files)
    decreases |files|
  {
    if |files| > 0 {
      var step := PlanStep(files[0], dest, rules, unknown, fs);
      var rest := PlanMoves(files[1..], dest, rules, unknown, step.1);
      PlanSourcesInOrder(files[1..], dest, rules, unknown, step.1);
      if step.0.Some? {
        var moves := [step.0.value] + rest.moves;
        assert moves[1..] == rest.moves;
        assert Sources(moves)[1..] == Sources(rest.moves);
      }
    }
  }

  /** The planner creates nothing but the destination root's ancestors and the
      directories of the categories of the enumerated files. */
  lemma {:induction false} PlanCreatesOnlyCategoryDirs(files: seq<Path>, dest: Path, rules: RuleMap, unknown: string, fs: FileSystem)
    ensures var r := PlanMoves(files, dest, rules, unknown, fs);
            forall p :: p in r.fs && p !in fs ==> CreatedDir(p, dest, Categories(files, rules, unknown))
    decreases |files|
  {
    if |files| > 0 {
      var step := PlanStep(files[0], dest, rules, unknown, fs);
      PlanCreatesOnlyCategoryDirs(files[1..], dest, rules, unknown, step.1);
      var first, later := Categorize(files[0], rules, unknown), Categories(files[1..], rules, unknown);
      CreatedDirsCombine(fs, step.1, PlanMoves(files[1..], dest, rules, unknown, step.1).fs, dest, first, later);
    }
  }

  /** Directories created in two stages, the first for one category and the
      second for a set of categories, are directories of their union. */
  lemma CreatedDirsCombine(fs: FileSystem, mid: FileSystem, fin: FileSystem, dest: Path, first: string, later: set<string>)
    requires fs <= mid
    requires forall p :: p in mid && p !in fs ==> CreatedDir(p, dest, {first})
    requires forall p :: p in fin && p !in mid ==> CreatedDir(p, dest, later)
    ensures forall p :: p in fin && p !in fs ==> CreatedDir(p, dest, {first} + later)
  {
    forall p | p in fin && p !in fs
      ensures CreatedDir(p, dest, {first} + later)
    {
      if p in mid {
        assert CreatedDir(p, dest, {first});
      } else {
        assert CreatedDir(p, dest, later);
      }
    }
  }

  /** Each move goes to the destination chosen against `fs`, and none has equal
      source and destination. */
  predicate PlacedAgainst(moves: seq<MovePlan>, fs: FileSystem, dest: Path, rules: RuleMap, unknown: string)
    decreases |moves|
  {
    |moves| == 0 ||
    (&& moves[0].dst == Destination(fs, dest, rules, unknown, moves[0].src)
     && moves[0].src != moves[0].dst
     && PlacedAgainst(moves[1..], fs, dest, rules, unknown))
  }

  lemma {:induction false} PlacedAgainstStable(moves: seq<MovePlan>, fs: FileSystem, fs': FileSystem, dest: Path, rules: RuleMap, unknown: string)
    requires fs <= fs'
    requires forall p :: p in fs' && p !in fs ==> |p| <= |dest| + 1
    requires PlacedAgainst(moves, fs', dest, rules, unknown)
    ensures PlacedAgainst(moves, fs, dest, rules, unknown)
    decreases |moves|
  {
    if |moves| > 0 {
      DestinationStable(fs, fs', dest, rules, unknown, moves[0].src);
      PlacedAgainstStable(moves[1..], fs, fs', dest, rules, unknown);
    }
  }

  lemma {:induction false} PlanPlaced(files: seq<Path>, dest: Path, rules: RuleMap, unknown: string, fs: FileSystem)
    ensures PlacedAgainst(PlanMoves(files, dest, rules, unknown, fs).moves, fs, dest, rules, unknown)
    decreases |files|
  {
    if |files| > 0 {
      var step := PlanStep(files[0], dest, rules, unknown, fs);
      var rest := PlanMoves(files[1..], dest, rules, unknown, step.1);
      PlanPlaced(files[1..], dest, rules, unknown, step.1);
      PlacedAgainstStable(rest.moves, fs, step.1, dest, rules, unknown);
      if step.0.Some? {
        var moves := [step.0.value] + rest.moves;
        assert moves[1..] == rest.moves;
      }
    }
  }

  lemma {:induction false} PlacedAgainstEach(moves: seq<MovePlan>, fs: FileSystem, dest: Path, rules: RuleMap, unknown: string)
    requires PlacedAgainst(moves, fs, dest, rules, unknown)
    ensures forall k :: 0 <= k < |moves| ==>
              && moves[k].dst == Destination(fs, dest, rules, unknown, moves[k].src)
              && moves[k].src != moves[k].dst
    decreases |moves|
  {
    if |moves| > 0 {
      PlacedAgainstEach(moves[1..], fs, dest, rules, unknown);
      forall k | 1 <= k < |moves|
        ensures moves[k] == moves[1..][k - 1]
      {
      }
    }
  }

  /** Every planned destination is the name `unique_destination` picks in the
      source's category directory of the filesystem as it was BEFORE planning
      (the planner's own directory creations never add files there), and no
      move has equal source and destination. */
  lemma PlanDestinations(files: seq<Path>, dest: Path, rules: RuleMap, unknown: string, fs: FileSystem)
    ensures var r := PlanMoves(files, dest, rules, unknown, fs);
            forall k :: 0 <= k < |r.moves| ==>
              && r.moves[k].dst == Destination(fs, dest, rules, unknown, r.moves[k].src)
              && r.moves[k].src != r.moves[k].dst
  {
    PlanPlaced(files, dest, rules, unknown, fs);
    PlacedAgainstEach(PlanMoves(files, dest, rules, unknown, fs).moves, fs, dest, rules, unknown);
  }

  /** Every planned destination lies in the directory of its source's
      category and is absent from the filesystem, both when planning starts
      and after all of the planner's directory creations. */
  lemma PlannedDestinationsAbsent(files: seq<Path>, dest: Path, rules: RuleMap, unknown: string, fs: FileSystem)
    ensures var r := PlanMoves(files, dest, rules, unknown, fs);
            forall k :: 0 <= k < |r.moves| ==>
              && Parent(r.moves[k].dst) == TargetDir(dest, Categorize(r.moves[k].src, rules, unknown))
              && r.moves[k].dst !in fs
              && r.moves[k].dst !in r.fs
  {
    PlanDestinations(files, dest, rules, unknown, fs);
  }

  /** The `src == dst` skip never fires: when every enumerated file exists,
      each of them is planned, in order. */
  lemma {:induction false} PlanKeepsEveryFile(files: seq<Path>, dest: Path, rules: RuleMap, unknown: string, fs: FileSystem)
    requires forall f :: f in files ==> f in fs
    ensures Sources(PlanMoves(files, dest, rules, unknown, fs).moves) == files
    decreases |files|
  {
    if |files| > 0 {
      var step := PlanStep(files[0], dest, rules, unknown, fs);
      var rest := files[1..];
      PlanStepKeepsExistingFile(files[0], dest, rules, unknown, fs);
      forall f | f in rest ensures f in step.1 {
        assert f in files;
      }
      PlanKeepsEveryFile(rest, dest, rules, unknown, step.1);
      SourcesOfPlannedStep(files, dest, rules, unknown, fs);
      assert [files[0]] + rest == files;
    }
  }

  lemma PlanStepKeepsExistingFile(file: Path, dest: Path, rules: RuleMap, unknown: string, fs: FileSystem)
    requires file in fs
    ensures PlanStep(file, dest, rules, unknown, fs).0 == Some(MovePlan(file, Destination(fs, dest, rules, unknown, file)))
  {
  }

  lemma SourcesOfPlannedStep(files: seq<Path>, dest: Path, rules: RuleMap, unknown: string, fs: FileSystem)
    requires |files| > 0
    requires PlanStep(files[0], dest, rules, unknown, fs).0.Some?
    ensures var step := PlanStep(files[0], dest, rules, unknown, fs);
            Sources(PlanMoves(files, dest, rules, unknown, fs).moves)
              == [files[0]] + Sources(PlanMoves(files[1..], dest, rules, unknown, step.1).moves)
  {
    var step := PlanStep(files[0], dest, rules, unknown, fs);
    var rest := PlanMoves(files[1..], dest, rules, unknown, step.1);
    var moves := PlanMoves(files, dest, rules, unknown, fs).moves;
    assert moves == [step.0.value] + rest.moves;
    assert moves[1..] == rest.moves;
  }

  /** Two files of one batch with the same name and category are sent to the
      same destination: names are checked against the filesystem before any
      move, so the batch is not disambiguated against itself. */
  lemma BatchCollision(f1: Path, f2: Path, dest: Path, rules: RuleMap, unknown: string, fs: FileSystem)
    requires f1 in fs && f2 in fs
    requires Name(f1) == Name(f2)
    requires Categorize(f1, rules, unknown) == Categorize(f2, rules, unknown)
    ensures var d := Destination(fs, dest, rules, unknown, f1);
            PlanMoves([f1, f2], dest, rules, unknown, fs).moves == [MovePlan(f1, d), MovePlan(f2, d)]
  {
  }

  /** A file that already sits in its category directory is not left in
      place: it is planned to move to `stem (i)suffix` for some `i >= 2`, so
      running the organizer again over its own output is not a no-op. */
  lemma PlacedFileIsRenamed(f: Path, dest: Path, rules: RuleMap, unknown: string, fs: FileSystem)
    requires f in fs
    requires f == TargetDir(dest, Categorize(f, rules, unknown)) + [Name(f)]
    ensures var moves := PlanMoves([f], dest, rules, unknown, fs).moves;
            && |moves| == 1
            && moves[0].src == f
            && moves[0].dst != f
            && exists i: nat :: 2 <= i
                 && moves[0].dst == Parent(f) + [Candidate(Stem(Name(f)), i, Suffix(Name(f)))]
  {
    PlanSingle(f, dest, rules, unknown, fs);
    PlacedDestination(f, dest, rules, unknown, fs);
  }

  /** An existing file on its own is planned to its destination. */
  lemma PlanSingle(f: Path, dest: Path, rules: RuleMap, unknown: string, fs: FileSystem)
    requires f in fs
    ensures PlanMoves([f], dest, rules, unknown, fs).moves == [MovePlan(f, Destination(fs, dest, rules, unknown, f))]
  {
    PlanStepKeepsExistingFile(f, dest, rules, unknown, fs);
    assert [f][1..] == [];
  }

  /** The destination chosen for a file already in its category directory
      carries a counter of at least 2. */
  lemma PlacedDestination(f: Path, dest: Path, rules: RuleMap, unknown: string, fs: FileSystem)
    requires f in fs
    requires f == TargetDir(dest, Categorize(f, rules, unknown)) + [Name(f)]
    ensures var d := Destination(fs, dest, rules, unknown, f);
            && d != f
            && exists i: nat :: 2 <= i && d == Parent(f) + [Candidate(Stem(Name(f)), i, Suffix(Name(f)))]
  {
    var dir := TargetDir(dest, Categorize(f, rules, unknown));
    assert Parent(f) == dir;
    assert Name(f) in ChildNames(fs, dir);
  }
}

=== FILE: preview.dfy ===
/**
 * The human-readable preview of a plan: a header with the number of planned
 * moves, one numbered line per move for at most `maxShow` moves, and a line
 * counting the moves left unshown.
 */
module Preview {
  import opened Text
  import opened Paths
  import opened Planner

  /** The default number of moves listed. */
  const DefaultMaxShow: nat := 50

  function HeaderLine(n: nat): string {
    "Planned moves: " + ShowNat(n) + " file(s)"
  }

  /** The line for the `i`-th move, numbered from 1 and right-aligned in three
      columns. */
  function EntryLine(i: nat, m: MovePlan): string {
    "  " + PadLeft(ShowNat(i), 3) + ". " + PathString(m.src) + "  ->  " + PathString(m.dst)
  }

  function TailLine(k: nat): string {
    "  ... (" + ShowNat(k) + " more)"
  }

  function Min(a: nat, b: nat): nat {
    if a <= b then a else b
  }

  /** The lines of `human_preview`, before joining. */
  function PreviewLines(moves: seq<MovePlan>, maxShow: nat): (lines: seq<string>)
    ensures |lines| == 1 + Min(|moves|, maxShow) + (if |moves| > maxShow then 1 else 0)
    ensures lines[0] == HeaderLine(|moves|)
    ensures forall k :: 1 <= k <= Min(|moves|, maxShow) ==> lines[k] == EntryLine(k, moves[k - 1])
    ensures |moves| > maxShow ==> lines[|lines| - 1] == TailLine(|moves| - maxShow)
  {
    var shown := Min(|moves|, maxShow);
    var entries := seq(shown, k requires 0 <= k < shown => EntryLine(k + 1, moves[k]));
    var tail := if |moves| > maxShow then [TailLine(|moves| - maxShow)] else [];
    [HeaderLine(|moves|)] + entries + tail
  }

  /** `human_preview`: the lines joined with line feeds. */
  function HumanPreview(moves: seq<MovePlan>, maxShow: nat): string {
    Join(PreviewLines(moves, maxShow), '\n')
  }

  /** No segment of the path holds a line feed. */
  predicate SingleLinePath(p: Path) {
    forall i :: 0 <= i < |p| ==> '\n' !in p[i]
  }

  lemma NumberHasNoLineFeed(n: nat)
    ensures '\n' !in ShowNat(n)
  {
  }

  lemma PathHasNoLineFeed(p: Path)
    requires SingleLinePath(p)
    ensures '\n' !in PathString(p)
  {
    JoinAvoids(p, '/', '\n');
  }

  lemma PaddedNumberHasNoLineFeed(n: nat)
    ensures '\n' !in PadLeft(ShowNat(n), 3)
  {
    var s, r := ShowNat(n), PadLeft(ShowNat(n), 3);
    NumberHasNoLineFeed(n);
    forall i | |r| - |s| <= i < |r| ensures r[i] != '\n' {
      assert r[i] == r[|r| - |s|..][i - (|r| - |s|)];
    }
  }

  /** Every line of the preview is a single line when the paths are. */
  lemma PreviewLinesAreSingle(moves: seq<MovePlan>, maxShow: nat)
    requires forall m :: m in moves ==> SingleLinePath(m.src) && SingleLinePath(m.dst)
    ensures forall i :: 0 <= i < |PreviewLines(moves, maxShow)| ==> '\n' !in PreviewLines(moves, maxShow)[i]
  {
    var lines := PreviewLines(moves, maxShow);
    NumberHasNoLineFeed(|moves|);
    forall i | 0 <= i < |lines| ensures '\n' !in lines[i] {
      if 1 <= i <= Min(|moves|, maxShow) {
        var m := moves[i - 1];
        PaddedNumberHasNoLineFeed(i);
        PathHasNoLineFeed(m.src);
        PathHasNoLineFeed(m.dst);
      } else if i > 0 {
        NumberHasNoLineFeed(|moves| - maxShow);
      }
    }
  }

  /** Splitting the preview text at line feeds recovers its lines: a header,
      the numbered moves and, for a long plan, the count of the rest. */
  lemma PreviewRoundTrip(moves: seq<MovePlan>, maxShow: nat)
    requires forall m :: m in moves ==> SingleLinePath(m.src) && SingleLinePath(m.dst)
    ensures Split(HumanPreview(moves, maxShow), '\n') == PreviewLines(moves, maxShow)
  {
    PreviewLinesAreSingle(moves, maxShow);
    SplitJoin(PreviewLines(moves, maxShow), '\n');
  }

  /** A plan no longer than `maxShow` is listed in full, without a tail line;
      a longer one is cut after `maxShow` entries. */
  lemma PreviewTruncation(moves: seq<MovePlan>, maxShow: nat)
    requires forall m :: m in moves ==> SingleLinePath(m.src) && SingleLinePath(m.dst)
    ensures |moves| <= maxShow ==> |Split(HumanPreview(moves, maxShow), '\n')| == 1 + |moves|
    ensures |moves| > maxShow ==> |Split(HumanPreview(moves, maxShow), '\n')| == 2 + maxShow
  {
    PreviewRoundTrip(moves, maxShow);
  }
}

=== FILE: prompt.dfy ===
/**
 * The confirmation prompt `Proceed to move these files? [y/N]`.
 */
module Prompt {
  import opened Wrappers
  import opened Text

  /** The confirmation prompt's verdict: the reply, stripped and lower-cased,
      is exactly `y`; end of input declines. */
  predicate Proceed(answer: Option<string>) {
    answer.Some? && Lower(Strip(answer.value)) == "y"
  }

  /** The prompt proceeds exactly when the reply, without surrounding
      whitespace, is the single letter `y` or `Y`. */
  lemma ProceedIff(answer: Option<string>)
    ensures Proceed(answer) <==> answer.Some? && Strip(answer.value) in {"y", "Y"}
  {
    if answer.Some? {
      var t := Strip(answer.value);
      if t == "y" || t == "Y" {
        assert Lower(t)[0] == LowerChar(t[0]) == 'y';
        assert Lower(t) == "y";
      }
      if Lower(t) == "y" {
        assert |t| == 1 && LowerChar(t[0]) == 'y';
        assert t == [t[0]];
      }
    }
  }

  lemma TrimStartPaddedY()
    ensures TrimStart(" Y \n") == "Y \n"
  {
    var s := " Y \n";
    assert IsSpace(s[0]) && s[1..] == "Y \n";
    assert !IsSpace("Y \n"[0]);
  }

  lemma TrimEndPaddedY()
    ensures TrimEnd("Y \n") == "Y"
  {
    var s := "Y \n";
    assert IsSpace(s[2]) && s[..2] == "Y ";
    assert IsSpace("Y "[1]) && "Y "[..1] == "Y";
    assert !IsSpace("Y"[0]);
  }

  /** Stripping removes the blanks and the line break around `Y`. */
  lemma StripPaddedY()
    ensures Strip(" Y \n") == "Y"
  {
    TrimStartPaddedY();
    TrimEndPaddedY();
  }

  /** The prompt accepts `Y` surrounded by blanks. */
  lemma ProceedAcceptsPaddedY()
    ensures Proceed(Some(" Y \n"))
  {
    StripPaddedY();
    ProceedIff(Some(" Y \n"));
  }

  /** The prompt accepts a plain `y`. */
  lemma ProceedAcceptsY()
    ensures Proceed(Some("y"))
  {
    assert Strip("y") == "y" by {
      StripUnchanged("y");
    }
    ProceedIff(Some("y"));
  }

  /** The prompt declines `yes`. */
  lemma ProceedRejectsYes()
    ensures !Proceed(Some("yes"))
  {
    var yes := "yes";
    assert yes[0] == 'y' && yes[|yes| - 1] == 's';
    StripUnchanged(yes);
    ProceedIff(Some(yes));
  }

  /** The prompt declines an empty reply and end of input. */
  lemma ProceedRejectsEmpty()
    ensures !Proceed(Some("")) && !Proceed(None)
  {
    assert Strip("") == "";
    ProceedIff(Some(""));
  }
}

=== FILE: rules.dfy ===
/**
 * The extension-to-folder rule mapping: the built-in table, the key
 * normalisation applied to a user-supplied rules document, loading, and the
 * lookup that assigns a file its category.
 */
module Rules {
  import opened Wrappers
  import opened Text
  import opened Paths

  /** Extension (lower case, leading dot) to category folder name. */
  type RuleMap = map<string, string>

  /** The entries of a parsed rules document (`data.items()`): distinct raw
      keys, in the order of their first occurrence in the document. */
  type RuleItems = seq<(string, string)>

  /** The built-in table used when no rules document is given, assembled from
      its groups (the groups' keys are disjoint). */
  const DefaultRules: RuleMap :=
    DocumentRules + ImageRules + MediaRules + ArchiveRules + CodeRules

  const DocumentRules: RuleMap := map[
    ".pdf" := "docs",
    ".doc" := "docs", ".docx" := "docs", ".odt" := "docs",
    ".txt" := "docs", ".md" := "docs", ".rtf" := "docs",
    ".xls" := "sheets", ".xlsx" := "sheets", ".csv" := "sheets",
    ".ppt" := "slides", ".pptx" := "slides"
  ]

  const ImageRules: RuleMap := map[
    ".jpg" := "images", ".jpeg" := "images", ".png" := "images", ".gif" := "images",
    ".tif" := "images", ".tiff" := "images", ".bmp" := "images", ".webp" := "images"
  ]

  /** Audio and video. */
  const MediaRules: RuleMap := map[
    ".mp3" := "audio", ".wav" := "audio", ".flac" := "audio", ".m4a" := "audio",
    ".mp4" := "video", ".mov" := "video", ".mkv" := "video", ".avi" := "video"
  ]

  const ArchiveRules: RuleMap := map[
    ".zip" := "archives", ".rar" := "archives", ".7z" := "archives", ".tar" := "archives", ".gz" := "archives"
  ]

  /** Code and data. */
  const CodeRules: RuleMap := map[
    ".py" := "code", ".ipynb" := "code", ".js" := "code", ".ts" := "code", ".json" := "data",
    ".yml" := "config", ".yaml" := "config", ".toml" := "config"
  ]

  /** A key in normal form: a leading dot, no capitals, no trailing whitespace
      (the leading dot already rules out leading whitespace). */
  predicate IsNormalKey(k: string) {
    && |k| > 0
    && k[0] == '.'
    && !IsSpace(k[|k| - 1])
    && forall i :: 0 <= i < |k| ==> !IsUpper(k[i])
  }

  /** One key of a rules document: stripped, lower-cased, and given a leading
      dot unless it already has one. */
  function NormalizeKey(k: string): (r: string)
    ensures IsNormalKey(r)
    ensures StartsWith(Lower(Strip(k)), ".") ==> r == Lower(Strip(k))
    ensures !StartsWith(Lower(Strip(k)), ".") ==> r == "." + Lower(Strip(k))
  {
    var t := Lower(Strip(k));
    LowerStripIsNormalBody(k);
    if StartsWith(t, ".") then t
    else
      var r := "." + t;
      assert forall i :: 1 <= i < |r| ==> r[i] == t[i - 1];
      r
  }

  /** The stripped, lower-cased key has no capitals and does not end in
      whitespace. */
  lemma LowerStripIsNormalBody(k: string)
    ensures forall i :: 0 <= i < |Lower(Strip(k))| ==> !IsUpper(Lower(Strip(k))[i])
    ensures |Lower(Strip(k))| > 0 ==> !IsSpace(Lower(Strip(k))[|Lower(Strip(k))| - 1])
  {
    var s := Strip(k);
    var t := Lower(s);
    if |t| > 0 {
      assert t[|t| - 1] == LowerChar(s[|s| - 1]);
    }
  }

  /** Normalisation changes exactly the keys that are not in normal form. */
  lemma NormalizeKeyFixedPoint(k: string)
    ensures NormalizeKey(k) == k <==> IsNormalKey(k)
  {
    if IsNormalKey(k) {
      StripUnchanged(k);
      LowerOfLower(k);
      assert Lower(Strip(k)) == k;
    }
  }

  /** Normalising twice is normalising once. */
  lemma NormalizeKeyIdempotent(k: string)
    ensures NormalizeKey(NormalizeKey(k)) == NormalizeKey(k)
  {
    NormalizeKeyFixedPoint(NormalizeKey(k));
  }

  /** A key that already starts with a dot gets no second one; any other key
      gets exactly one. */
  lemma NormalizeKeyLeadingDot(k: string)
    ensures StartsWith(Strip(k), ".") ==> NormalizeKey(k) == Lower(Strip(k))
    ensures !StartsWith(Strip(k), ".") ==> NormalizeKey(k) == "." + Lower(Strip(k))
  {
    var s := Strip(k);
    var t := Lower(s);
    if |s| > 0 {
      assert t[0] == LowerChar(s[0]);
      assert StartsWith(s, ".") <==> s[0] == '.';
      assert StartsWith(t, ".") <==> t[0] == '.';
    }
  }

  /** The entries with their keys normalised, values untouched. */
  function NormalizeItems(items: RuleItems): (r: RuleItems)
    ensures |r| == |items|
    ensures forall i :: 0 <= i < |r| ==> r[i].0 == NormalizeKey(items[i].0)
    ensures forall i :: 0 <= i < |r| ==> IsNormalKey(r[i].0) && r[i].1 == items[i].1
    ensures forall i :: 0 <= i < |r| && IsNormalKey(items[i].0) ==> r[i] == items[i]
  {
    var r := seq(|items|, i requires 0 <= i < |items| => (NormalizeKey(items[i].0), items[i].1));
    assert forall i :: 0 <= i < |r| && IsNormalKey(items[i].0) ==> r[i] == items[i] by {
      forall i | 0 <= i < |r| && IsNormalKey(items[i].0) ensures r[i] == items[i] {
        NormalizeKeyFixedPoint(items[i].0);
      }
    }
    r
  }

  /** A dictionary filled from `pairs` in order, so a later pair overwrites an
      earlier one with the same key. */
  function BuildMap(pairs: RuleItems): (r: RuleMap)
    ensures forall i :: 0 <= i < |pairs| ==> pairs[i].0 in r
  {
    if |pairs| == 0 then map[]
    else
      var init := pairs[..|pairs| - 1];
      assert forall i :: 0 <= i < |init| ==> init[i] == pairs[i];
      BuildMap(init)[pairs[|pairs| - 1].0 := pairs[|pairs| - 1].1]
  }

  /** Pair `i` of `pairs` is `(k, v)`. */
  predicate Holds(pairs: RuleItems, i: int, k: string, v: string) {
    0 <= i < |pairs| && pairs[i] == (k, v)
  }

  /** Every entry of the dictionary is one of the pairs: nothing is invented
      and no value is altered. */
  lemma {:induction false} BuildMapFrom(pairs: RuleItems, k: string)
    requires k in BuildMap(pairs)
    ensures exists i :: Holds(pairs, i, k, BuildMap(pairs)[k])
    decreases |pairs|
  {
    var init := pairs[..|pairs| - 1];
    var last := pairs[|pairs| - 1];
    if k == last.0 {
      assert Holds(pairs, |pairs| - 1, k, BuildMap(pairs)[k]);
    } else {
      BuildMapFrom(init, k);
      var i :| Holds(init, i, k, BuildMap(init)[k]);
      assert pairs[i] == init[i];
      assert Holds(pairs, i, k, BuildMap(pairs)[k]);
    }
  }

  /** The value stored under a key is that of the last pair with that key. */
  lemma {:induction false} BuildMapLastWins(pairs: RuleItems, i: nat)
    requires i < |pairs|
    requires forall j :: i < j < |pairs| ==> pairs[j].0 != pairs[i].0
    ensures BuildMap(pairs)[pairs[i].0] == pairs[i].1
    decreases |pairs|
  {
    var init := pairs[..|pairs| - 1];
    if i < |pairs| - 1 {
      assert init[i] == pairs[i];
      assert forall j :: i < j < |init| ==> init[j] == pairs[j];
      BuildMapLastWins(init, i);
    }
  }

  lemma SameEntries(a: RuleMap, b: RuleMap)
    requires b.Keys <= a.Keys
    requires forall k :: k in a ==> k in b && a[k] == b[k]
    ensures a == b
  {
    assert a.Keys == b.Keys;
  }

  /** Pairs listing exactly the entries of a mapping, in any order and with
      any repetition, rebuild that mapping. */
  lemma BuildMapOfMap(m: RuleMap, pairs: RuleItems)
    requires forall i :: 0 <= i < |pairs| ==> pairs[i].0 in m && m[pairs[i].0] == pairs[i].1
    requires forall k :: k in m ==> exists i :: 0 <= i < |pairs| && pairs[i].0 == k
    ensures BuildMap(pairs) == m
  {
    var r := BuildMap(pairs);
    forall k | k in r ensures k in m && r[k] == m[k] {
      BuildMapFrom(pairs, k);
      var i :| Holds(pairs, i, k, r[k]);
    }
    forall k | k in m ensures k in r {
      var i :| 0 <= i < |pairs| && pairs[i].0 == k;
    }
    SameEntries(r, m);
  }

  /** A dictionary built from pairs with normal keys has only normal keys. */
  lemma BuildMapNormalKeys(pairs: RuleItems)
    requires forall i :: 0 <= i < |pairs| ==> IsNormalKey(pairs[i].0)
    ensures forall k :: k in BuildMap(pairs) ==> IsNormalKey(k)
  {
    forall k | k in BuildMap(pairs) ensures IsNormalKey(k) {
      BuildMapFrom(pairs, k);
      var i :| Holds(pairs, i, k, BuildMap(pairs)[k]);
    }
  }

  /** The mapping built from a rules document: every entry is stored under its
      normalised key, in document order, so a later entry whose key normalises
      to the same string overwrites an earlier one. */
  function NormalizeRules(items: RuleItems): (r: RuleMap)
    ensures forall k :: k in r ==> IsNormalKey(k)
    ensures forall i :: 0 <= i < |items| ==> NormalizeKey(items[i].0) in r
  {
    var pairs := NormalizeItems(items);
    BuildMapNormalKeys(pairs);
    BuildMap(pairs)
  }

  /** Entry `i` of `items` supplies key `k` with value `v`. */
  predicate Supplies(items: RuleItems, i: int, k: string, v: string) {
    0 <= i < |items| && NormalizeKey(items[i].0) == k && items[i].1 == v
  }

  /** Every key of the loaded mapping comes, with its value, from some entry of
      the document: nothing is invented and no value is altered. */
  lemma NormalizeRulesFromItems(items: RuleItems, k: string)
    requires k in NormalizeRules(items)
    ensures exists i :: Supplies(items, i, k, NormalizeRules(items)[k])
  {
    var pairs := NormalizeItems(items);
    BuildMapFrom(pairs, k);
    var i :| Holds(pairs, i, k, BuildMap(pairs)[k]);
    assert Supplies(items, i, k, NormalizeRules(items)[k]);
  }

  /** The value stored under a key is that of the last entry normalising to it. */
  lemma NormalizeRulesLastWins(items: RuleItems, i: nat)
    requires i < |items|
    requires forall j :: i < j < |items| ==> NormalizeKey(items[j].0) != NormalizeKey(items[i].0)
    ensures NormalizeRules(items)[NormalizeKey(items[i].0)] == items[i].1
  {
    BuildMapLastWins(NormalizeItems(items), i);
  }

  /** Normalising a document whose keys were already normalised gives the
      same mapping as normalising it once. */
  lemma NormalizeRulesTwice(items: RuleItems)
    ensures NormalizeRules(NormalizeItems(items)) == NormalizeRules(items)
  {
    var n := NormalizeItems(items);
    forall i | 0 <= i < |items| ensures NormalizeItems(n)[i] == n[i] {
      NormalizeKeyIdempotent(items[i].0);
    }
    assert NormalizeItems(n) == n;
  }

  /** A document listing exactly the entries of a mapping whose keys are all
      in normal form loads back as that mapping, whatever the entry order. */
  lemma NormalizeRulesOfNormalMap(m: RuleMap, items: RuleItems)
    requires forall k :: k in m ==> IsNormalKey(k)
    requires forall i :: 0 <= i < |items| ==> items[i].0 in m && m[items[i].0] == items[i].1
    requires forall k :: k in m ==> exists i :: 0 <= i < |items| && items[i].0 == k
    ensures NormalizeRules(items) == m
  {
    NormalItemsUnchanged(m, items);
    BuildMapOfMap(m, items);
  }

  /** Entries whose keys are keys of a mapping in normal form are left as
      they are by normalisation. */
  lemma NormalItemsUnchanged(m: RuleMap, items: RuleItems)
    requires forall k :: k in m ==> IsNormalKey(k)
    requires forall i :: 0 <= i < |items| ==> items[i].0 in m
    ensures NormalizeItems(items) == items
  {
    forall i | 0 <= i < |items| ensures NormalizeItems(items)[i] == items[i] {
      NormalizeKeyFixedPoint(items[i].0);
    }
  }

  /** Every key of the built-in table is already in normal form. */
  lemma DefaultKeysNormal()
    ensures forall k :: k in DefaultRules ==> IsNormalKey(k)
  {
    DocumentKeysNormal();
    ImageKeysNormal();
    MediaKeysNormal();
    ArchiveKeysNormal();
    CodeKeysNormal();
  }

  lemma DocumentKeysNormal()
    ensures forall k :: k in DocumentRules ==> IsNormalKey(k)
  {
  }

  lemma ImageKeysNormal()
    ensures forall k :: k in ImageRules ==> IsNormalKey(k)
  {
  }

  lemma MediaKeysNormal()
    ensures forall k :: k in MediaRules ==> IsNormalKey(k)
  {
  }

  lemma ArchiveKeysNormal()
    ensures forall k :: k in ArchiveRules ==> IsNormalKey(k)
  {
  }

  lemma CodeKeysNormal()
    ensures forall k :: k in CodeRules ==> IsNormalKey(k)
  {
  }

  /** Writing the built-in table out as a document and loading it back yields
      the built-in table. */
  lemma DefaultRulesRoundTrip(items: RuleItems)
    requires forall i :: 0 <= i < |items| ==> items[i].0 in DefaultRules && DefaultRules[items[i].0] == items[i].1
    requires forall k :: k in DefaultRules ==> exists i :: 0 <= i < |items| && items[i].0 == k
    ensures NormalizeRules(items) == DefaultRules
  {
    DefaultKeysNormal();
    NormalizeRulesOfNormalMap(DefaultRules, items);
  }

  /** `load_rules`: no rules path selects the built-in table; a document that
      could not be read or parsed as a flat key-value object ends the run with
      a message; otherwise the document's entries are normalised. */
  function LoadRules(path: Option<Path>, document: Result<RuleItems, string>): (r: Result<RuleMap, string>)
    ensures path.None? ==> r == Success(DefaultRules)
    ensures path.Some? ==> (r.Failure? <==> document.Failure?)
    ensures path.Some? && document.Success? ==> r == Success(NormalizeRules(document.value))
    ensures r.Success? ==> forall k :: k in r.value ==> IsNormalKey(k)
  {
    match path
    case None =>
      DefaultKeysNormal();
      Success(DefaultRules)
    case Some(p) =>
      match document
      case Failure(e) => Failure("Failed to load rules from " + PathString(p) + ": " + e)
      case Success(items) => Success(NormalizeRules(items))
  }

  /** `categorize`: the category of the lower-cased final suffix of the file
      name, or `unknown` when the mapping has no such key. */
  function Categorize(path: Path, rules: RuleMap, unknown: string): string {
    Lookup(rules, Lower(Suffix(Name(path))), unknown)
  }

  /** The value `rules.get(key, unknown)`. */
  function Lookup(rules: RuleMap, key: string, unknown: string): string {
    if key in rules then rules[key] else unknown
  }

  /** A name `a.w` with a non-empty stem is categorised by `.w` alone, so
      `x.tar.gz` is looked up under `.gz`. */
  lemma CategorizeFinalSuffix(dir: Path, a: string, w: string, rules: RuleMap, unknown: string)
    requires |a| > 0 && |w| > 0 && '.' !in w
    ensures Categorize(dir + [a + "." + w], rules, unknown) == Lookup(rules, Lower("." + w), unknown)
  {
    SuffixOfFinalDot(a, w);
  }

  /** A name without a dot after its first character is looked up under the
      empty key. */
  lemma CategorizeNoSuffix(dir: Path, name: string, rules: RuleMap, unknown: string)
    requires forall k :: 0 < k < |name| ==> name[k] != '.'
    ensures Categorize(dir + [name], rules, unknown) == Lookup(rules, "", unknown)
  {
    NoSuffixWithoutInnerDot(name);
  }

  /** The category does not depend on the case of the file name. */
  lemma CategorizeIgnoresCase(dir: Path, name: string, rules: RuleMap, unknown: string)
    ensures Categorize(dir + [Lower(name)], rules, unknown) == Categorize(dir + [name], rules, unknown)
  {
    SuffixOfLower(name);
    var s := Suffix(name);
    assert Lower(Lower(s)) == Lower(s);
  }

  /** The built-in table has no entry for the empty key. */
  lemma DefaultNoEmptyKey()
    ensures "" !in DefaultRules
  {
    DefaultKeysNormal();
  }

  /** Examples: `photo.JPG` is looked up under `.jpg`, and `backup.tar.gz`
      under `.gz` alone. */
  lemma CategorizePhoto(dir: Path, rules: RuleMap, unknown: string)
    ensures Categorize(dir + ["photo.JPG"], rules, unknown) == Lookup(rules, ".jpg", unknown)
  {
    assert "photo" + "." + "JPG" == "photo.JPG";
    CategorizeFinalSuffix(dir, "photo", "JPG", rules, unknown);
    LowerJpg();
  }

  lemma LowerJpg()
    ensures Lower(".JPG") == ".jpg"
  {
    var r := Lower(".JPG");
    assert r[0] == '.' && r[1] == 'j' && r[2] == 'p' && r[3] == 'g';
  }

  lemma CategorizeTarGz(dir: Path, rules: RuleMap, unknown: string)
    ensures Categorize(dir + ["backup.tar.gz"], rules, unknown) == Lookup(rules, ".gz", unknown)
  {
    assert "backup.tar" + "." + "gz" == "backup.tar.gz";
    CategorizeFinalSuffix(dir, "backup.tar", "gz", rules, unknown);
    LowerGz();
  }

  lemma LowerGz()
    ensures Lower(".gz") == ".gz"
  {
    var r := Lower(".gz");
    assert r[0] == '.' && r[1] == 'g' && r[2] == 'z';
  }

  /** With the built-in table, `notes` and `.env` (no suffix) go to the
      unknown folder. */
  lemma CategorizeNoExtension(dir: Path)
    ensures Categorize(dir + ["notes"], DefaultRules, "others") == "others"
    ensures Categorize(dir + [".env"], DefaultRules, "others") == "others"
  {
    CategorizeNoSuffix(dir, "notes", DefaultRules, "others");
    CategorizeNoSuffix(dir, ".env", DefaultRules, "others");
    DefaultNoEmptyKey();
  }
}

=== FILE: sequences.dfy ===
/** Order-preserving selection from a sequence. */
module Sequences {

  /** `a` is obtained from `b` by deleting elements, keeping the order of the rest. */
  predicate IsSubsequence<T(==)>(a: seq<T>, b: seq<T>)
    decreases |b|
  {
    if |a| == 0 then true
    else if |b| == 0 then false
    else (a[0] == b[0] && IsSubsequence(a[1..], b[1..])) || IsSubsequence(a, b[1..])
  }

  /** A subsequence is never longer than the sequence it is taken from, and
      each of its elements occurs there. */
  lemma {:induction false} SubsequenceBounds<T>(a: seq<T>, b: seq<T>)
    requires IsSubsequence(a, b)
    ensures |a| <= |b|
    ensures forall x :: x in a ==> x in b
    decreases |b|
  {
    if |a| > 0 {
      if a[0] == b[0] && IsSubsequence(a[1..], b[1..]) {
        SubsequenceBounds(a[1..], b[1..]);
        forall x | x in a ensures x in b {
          if x != a[0] {
            assert x in a[1..];
          }
        }
      } else {
        SubsequenceBounds(a, b[1..]);
      }
    }
  }
}

=== FILE: text.dfy ===
/**
 * String helpers with the meaning Python's `str` methods have on ASCII text:
 * `lower()`, `strip()`, `startswith()`, decimal rendering of a counter,
 * right-aligned padding (`{i:>3}`) and `sep.join(parts)`.
 */
module Text {

  /** Python's `str.isspace` restricted to ASCII: tab, line feed, vertical tab,
      form feed, carriage return, the four separators 0x1C-0x1F, and space. */
  predicate IsSpace(c: char) {
    9 <= c as int <= 13 || 28 <= c as int <= 32
  }

  predicate IsUpper(c: char) {
    'A' <= c <= 'Z'
  }

  predicate StartsWith(s: string, prefix: string) {
    |prefix| <= |s| && s[..|prefix|] == prefix
  }

  /** ASCII case folding of one character. */
  function LowerChar(c: char): (d: char)
    ensures !IsUpper(d)
    ensures IsSpace(d) <==> IsSpace(c)
    ensures d == '.' <==> c == '.'
    ensures !IsUpper(c) ==> d == c
  {
    if IsUpper(c) then (c as int + 32) as char else c
  }

  /** `s.lower()` */
  function Lower(s: string): (r: string)
    ensures |r| == |s|
    ensures forall i :: 0 <= i < |s| ==> r[i] == LowerChar(s[i])
  {
    if |s| == 0 then []
    else
      var r := [LowerChar(s[0])] + Lower(s[1..]);
      assert forall i :: 1 <= i < |s| ==> r[i] == Lower(s[1..])[i - 1];
      r
  }

  /** Lower-casing leaves a string without capitals unchanged. */
  lemma LowerOfLower(s: string)
    requires forall i :: 0 <= i < |s| ==> !IsUpper(s[i])
    ensures Lower(s) == s
  {
  }

  /** `s.lstrip()` */
  function TrimStart(s: string): (r: string)
    ensures |r| <= |s| && r == s[|s| - |r|..]
    ensures |r| > 0 ==> !IsSpace(r[0])
    ensures forall i :: 0 <= i < |s| - |r| ==> IsSpace(s[i])
  {
    if |s| > 0 && IsSpace(s[0]) then TrimStart(s[1..]) else s
  }

  /** `s.rstrip()` */
  function TrimEnd(s: string): (r: string)
    ensures |r| <= |s| && r == s[..|r|]
    ensures |r| > 0 ==> !IsSpace(r[|r| - 1])
    ensures forall i :: |r| <= i < |s| ==> IsSpace(s[i])
  {
    if |s| > 0 && IsSpace(s[|s| - 1]) then TrimEnd(s[..|s| - 1]) else s
  }

  /** `s.strip()`: `s` without its leading and trailing whitespace. */
  function Strip(s: string): (r: string)
    ensures |r| > 0 ==> !IsSpace(r[0]) && !IsSpace(r[|r| - 1])
    ensures |r| <= |s|
  {
    TrimEnd(TrimStart(s))
  }

  /** A string that already has no whitespace at either end is its own strip. */
  lemma StripUnchanged(s: string)
    requires |s| > 0 ==> !IsSpace(s[0]) && !IsSpace(s[|s| - 1])
    ensures Strip(s) == s
  {
  }

  function DigitChar(d: nat): (c: char)
    requires d < 10
    ensures '0' <= c <= '9'
  {
    ('0' as int + d) as char
  }

  /** `str(n)` for a natural number: its decimal digits, most significant first. */
  function ShowNat(n: nat): (s: string)
    ensures 1 <= |s|
    ensures forall i :: 0 <= i < |s| ==> '0' <= s[i] <= '9'
    ensures n < 10 <==> |s| == 1
  {
    if n < 10 then [DigitChar(n)] else ShowNat(n / 10) + [DigitChar(n % 10)]
  }

  /** Distinct numbers render to distinct decimal strings. */
  lemma {:induction false} ShowNatInjective(a: nat, b: nat)
    ensures ShowNat(a) == ShowNat(b) ==> a == b
    decreases a
  {
    if ShowNat(a) == ShowNat(b) {
      if a < 10 || b < 10 {
        assert |ShowNat(a)| == 1 && |ShowNat(b)| == 1;
        assert ShowNat(a)[0] == DigitChar(a) && ShowNat(b)[0] == DigitChar(b);
      } else {
        var sa, sb := ShowNat(a), ShowNat(b);
        assert sa == ShowNat(a / 10) + [DigitChar(a % 10)];
        assert sb == ShowNat(b / 10) + [DigitChar(b % 10)];
        assert sa[|sa| - 1] == DigitChar(a % 10) && sb[|sb| - 1] == DigitChar(b % 10);
        assert a % 10 == b % 10;
        assert ShowNat(a / 10) == sa[..|sa| - 1] == sb[..|sb| - 1] == ShowNat(b / 10);
        ShowNatInjective(a / 10, b / 10);
      }
    }
  }

  /** `f"{s:>w}"`: `s` right-aligned in a field of `w` characters; a longer
      `s` is kept whole. */
  function PadLeft(s: string, w: nat): (r: string)
    ensures |r| == if |s| < w then w else |s|
    ensures r[|r| - |s|..] == s
    ensures forall i :: 0 <= i < |r| - |s| ==> r[i] == ' '
  {
    if |s| < w then seq(w - |s|, _ => ' ') + s else s
  }

  /** `sep.join(parts)` */
  function Join(parts: seq<string>, sep: char): string
  {
    if |parts| == 0 then ""
    else if |parts| == 1 then parts[0]
    else parts[0] + [sep] + Join(parts[1..], sep)
  }

  /** A character that none of the parts holds, and that is not the
      separator, does not occur in the joined text. */
  lemma {:induction false} JoinAvoids(parts: seq<string>, sep: char, c: char)
    requires c != sep
    requires forall i :: 0 <= i < |parts| ==> c !in parts[i]
    ensures c !in Join(parts, sep)
    decreases |parts|
  {
    if |parts| > 1 {
      JoinAvoids(parts[1..], sep, c);
      assert parts[0] + [sep] + Join(parts[1..], sep) == Join(parts, sep);
    }
  }

  /** `s.split(sep)`: the pieces between separators, at least one. */
  function Split(s: string, sep: char): (r: seq<string>)
    ensures |r| >= 1
    ensures forall i :: 0 <= i < |r| ==> sep !in r[i]
    decreases |s|
  {
    if |s| == 0 then [""]
    else
      var rest := Split(s[1..], sep);
      if s[0] == sep then [""] + rest
      else
        var r := [[s[0]] + rest[0]] + rest[1..];
        assert forall i :: 1 <= i < |r| ==> r[i] == rest[i];
        r
  }

  /** Text without the separator is a single piece. */
  lemma {:induction false} SplitWithoutSeparator(a: string, sep: char)
    requires sep !in a
    ensures Split(a, sep) == [a]
    decreases |a|
  {
    if |a| > 0 {
      SplitWithoutSeparator(a[1..], sep);
      assert [a[0]] + a[1..] == a;
    }
  }

  /** A first piece without the separator is split off exactly. */
  lemma {:induction false} SplitFirstPiece(a: string, b: string, sep: char)
    requires sep !in a
    ensures Split(a + [sep] + b, sep) == [a] + Split(b, sep)
    decreases |a|
  {
    var s := a + [sep] + b;
    if |a| == 0 {
      assert s[0] == sep && s[1..] == b;
    } else {
      assert s[0] == a[0] && s[1..] == a[1..] + [sep] + b;
      SplitFirstPiece(a[1..], b, sep);
      assert [a[0]] + a[1..] == a;
    }
  }

  /** Splitting undoes joining when no part holds the separator. */
  lemma {:induction false} SplitJoin(parts: seq<string>, sep: char)
    requires |parts| >= 1
    requires forall i :: 0 <= i < |parts| ==> sep !in parts[i]
    ensures Split(Join(parts, sep), sep) == parts
    decreases |parts|
  {
    if |parts| == 1 {
      SplitWithoutSeparator(parts[0], sep);
    } else {
      SplitJoin(parts[1..], sep);
      SplitFirstPiece(parts[0], Join(parts[1..], sep), sep);
      assert [parts[0]] + parts[1..] == parts;
    }
  }
}

=== FILE: wrappers.dfy ===
/** Option and Result, the failure-carrying datatypes used across the model. */
module Wrappers {

  /** A value that may be absent (end of input, an omitted command-line option). */
  datatype Option<+T> = None | Some(value: T)

  /** The outcome of an operation that can fail with a message. */
  datatype Result<+R, +E> = Success(value: R) | Failure(error: E)
}
